=== FILE: README.md ===
# Campus management backend: a verified model of its request core

This project models, in Dafny, the request-handling core of a campus
management backend. The backend is an Express/Sequelize service in
JavaScript. The model covers these parts:

- **Error middleware (`errorHandler`).** It turns any thrown error into a JSON failure reply. It runs seven independent rules, so the last rule that matches decides, and then falls back to the error's own status and message, or 500 and "Sunucu Hatası".
- **Access guard (`protect`).** It takes a bearer token from the `Authorization` header, verifies it and loads its user.
- **Role gate (`authorize(...roles)`).** It lets a user through only when the user's role is listed.
- **Joi schemas.** These are the registration and login schemas, written as validity predicates over a payload of optional JSON values. This includes the role-dependent fields and the exact meaning of the password pattern.
- **Department router.** It says which handler serves which verb and path, and which guards run first. `Serve` composes router, guards, handlers and error middleware into one request step over the store.
- **Department handlers.** List, show, create, update, delete and statistics, as operations on a store. The store is the departments table keyed by id, the next id to hand out, and the student and faculty rows reduced to their `departmentId`.
- **Upload filter.** The profile-image MIME allow-list and the 5 MB size limit.

Token verification, the user lookup, Joi's e-mail grammar and its date
conversion are oracles. Each is passed in as a function parameter. Each
operation is a pure function, or a method where it loops. Each one is
paired with an invariant it keeps, a reference definition, or an inverse,
and lemmas connect the two.

An error that no rule classifies is answered with its own `message`, and
only an empty message becomes "Sunucu Hatası"
(`src/middleware/error.js:8` and `:68`).

Layout: `wrappers.dfy` (Option), `strings.dfy` (the JavaScript string
operations used: `startsWith`, `includes`, `split`, `join`, ordering),
`error_middleware.dfy`, `auth_middleware.dfy`, `validation_schemas.dfy`,
`upload_middleware.dfy`, `department_controller.dfy`,
`department_routes.dfy`.

## Model

| member | source | states |
|---|---|---|
| `Strings.Split` | src/middleware/authMiddleware.js:14 | `split(' ')` always yields at least one piece, and no piece contains the separator |
| `Strings.SplitJoin` | src/middleware/authMiddleware.js:14 | splitting the join of separator-free pieces gives back exactly those pieces |
| `Strings.JoinSplit` | src/middleware/authMiddleware.js:14 | joining the pieces of a split with the separator rebuilds the original text |
| `Strings.StrLeTransitive` | src/controllers/departmentController.js:18 | the text order used for `ORDER BY` is transitive |
| `Strings.StrLeAntisymmetric` | src/controllers/departmentController.js:18 | the text order is antisymmetric, so sorting by it is well defined |
| `ErrorMiddleware.LastOverride` | src/middleware/error.js:16-63 | the rules leave no replacement exactly when none fired; otherwise the replacement is one of the fired rules' |
| `ErrorMiddleware.LastMatchWins` | src/middleware/error.js:16-63 | a rule that fires with no later rule firing is the one whose replacement stands |
| `ErrorMiddleware.ErrorHandler` | src/middleware/error.js:4-69 | the reply is never a success and never has an empty message or status 0; with no rule firing it keeps a truthy own status (else 500) and a non-empty own message (else "Sunucu Hatası"); with a rule firing the status is 400 or 401 |
| `ErrorMiddleware.NameRulesExclusive` | src/middleware/error.js:16-63 | at most one of the name-keyed rules can fire for one error |
| `ErrorMiddleware.UnclassifiedKeepsStatusAndMessage` | src/middleware/error.js:5-69 | an error that carries a truthy status and matches no rule keeps both its status and its own message |
| `ErrorMiddleware.MulterErrors` | src/middleware/error.js:17-29 | every upload-library error is a 400; unless its message also matches the file-filter rule, the three known codes each get their own message and any other code the generic upload message; when it does match, the error's own message is sent |
| `ErrorMiddleware.FileFilterMessagePassesThrough` | src/middleware/error.js:31-34 | a message containing the invalid-format text is answered with 400 and that exact message, unless a later rule fires |
| `ErrorMiddleware.DatabaseErrorOnlyFor22P02` | src/middleware/error.js:36-40 | a database error with parent code 22P02 always becomes the 400 invalid-id reply; any other database error is answered with its own status and message, or with 400 and its message when that message matches the file-filter rule |
| `ErrorMiddleware.UniqueConstraintFixed` | src/middleware/error.js:42-46 | a unique-constraint error is always 400 with one fixed message |
| `ErrorMiddleware.ValidationErrorJoinsItems` | src/middleware/error.js:48-52 | a validation error is a 400 whose message is its item messages joined by ", " in order; whenever that joined text is empty (no items, or only empty ones) the server-error text is sent |
| `ErrorMiddleware.TokenErrors` | src/middleware/error.js:54-63 | invalid and expired token errors are 401s, each with its own message |
| `ErrorMiddleware.ValidationBeatsFileFilter` | src/middleware/error.js:31-52 | a later rule overrides an earlier one: a validation error whose message has the invalid-format text gets the validation message |
| `AuthMiddleware.ExtractToken` | src/middleware/authMiddleware.js:10-15 | a token is only ever taken from a header starting with "Bearer", and it is non-empty and free of spaces |
| `AuthMiddleware.ExtractBearerHeader` | src/middleware/authMiddleware.js:10-15 | the header "Bearer " + t yields exactly t for every non-empty, space-free token t |
| `AuthMiddleware.SecondPiece` | src/middleware/authMiddleware.js:14 | the second piece of a split is the text between the first and the second space; without a space there is no second piece |
| `AuthMiddleware.ExtractTokenByIndex` | src/middleware/authMiddleware.js:10-15 | token extraction equals an index-based reference definition: the non-empty text after the first space up to the next space, under the "Bearer" prefix |
| `AuthMiddleware.NoSpaceGivesNoToken` | src/middleware/authMiddleware.js:14-17 | a header without a space yields no token |
| `AuthMiddleware.DoubleSpaceGivesNoToken` | src/middleware/authMiddleware.js:14-17 | two spaces after the scheme leave the second piece empty, so there is no token |
| `AuthMiddleware.MalformedHeadersGiveNoToken` | src/middleware/authMiddleware.js:10-17 | a missing header, "Bearer", "BearerX" and "Bearer  x" all yield no token |
| `AuthMiddleware.Protect` | src/middleware/authMiddleware.js:6-37 | no token gives 401 with the login message; every rejection is a 401; the request passes exactly when there is a token, it verifies, and its user exists, and then `req.user` is that user and nothing else changes; a verification failure gives the generic invalid-token 401 |
| `AuthMiddleware.NoTokenIgnoresOracles` | src/middleware/authMiddleware.js:17-19 | without a token the outcome is the same whatever the verifier and the user lookup do |
| `AuthMiddleware.ProtectFailureMessages` | src/middleware/authMiddleware.js:21-36 | every verification failure and a throwing lookup give the same generic 401; a missing user gives the user-gone 401 |
| `AuthMiddleware.Authorize` | src/middleware/authMiddleware.js:40-49 | the request passes, unchanged, exactly when the user's role is listed; otherwise 403 with the roles joined by ", " |
| `AuthMiddleware.AuthorizeNoRolesRejectsAll` | src/middleware/authMiddleware.js:42-46 | with no roles listed every user is refused |
| `AuthMiddleware.AuthorizeAdminOnly` | src/middleware/authMiddleware.js:40-49 | the admin gate passes admins and answers students and faculty with 403 |
| `ValidationSchemas.TitlesMatchFacultyModel` | src/utils/validationSchemas.js:63 | the six titles the schema admits are exactly the Faculty model's title enum |
| `ValidationSchemas.BodyClassAdmitsEverything` | src/utils/validationSchemas.js:11 | the pattern's body class `[a-zA-Z\d\W_]` admits every character |
| `ValidationSchemas.MatchPassword` | src/utils/validationSchemas.js:9-12 | a one-pass scan up to the first line terminator decides the password pattern exactly |
| `ValidationSchemas.LookaheadStopsAtTerminator` | src/utils/validationSchemas.js:11 | a lookahead succeeds exactly when its class occurs before the first line terminator |
| `ValidationSchemas.PasswordPatternWithoutLineBreaks` | src/utils/validationSchemas.js:9-12 | on text without line breaks the pattern is exactly: at least 8 characters, one a-z, one A-Z, one digit |
| `ValidationSchemas.LineBreakHidesClasses` | src/utils/validationSchemas.js:11 | a class that occurs only after a line break is not seen, so "abcdefgh\nA1" is refused |
| `ValidationSchemas.RegisterFieldRules` | src/utils/validationSchemas.js:3-48 | a valid registration has an e-mail, names of 2 to 50 characters, an 11-digit identity number, a listed gender if any, a password with the three classes, and no unknown keys |
| `ValidationSchemas.ValidRegister` | src/utils/validationSchemas.js:3-81 | a registration is valid exactly when its role is student or faculty, every shared field meets its rule (required e-mail, names of 2 to 50 characters, the password pattern, an 11-digit identity number, an optional date of birth not after now, the gender list, optional strings, a required numeric department id, no unknown keys) and the role-dependent fields are present or absent as its role demands |
| `ValidationSchemas.ValidLogin` | src/utils/validationSchemas.js:83-86 | a login is valid exactly when it has a non-empty e-mail the e-mail rule accepts, a non-empty password, and no other keys |
| `ValidationSchemas.RegisterRoleRules` | src/utils/validationSchemas.js:19-80 | a valid registration is a student or a faculty one; a title is present exactly for faculty and is a Faculty-model title; the student number only for students; the faculty-only fields only for faculty; a numeric department id |
| `ValidationSchemas.AdminNeverRegisters` | src/utils/validationSchemas.js:19-22 | no payload with role admin is valid |
| `ValidationSchemas.TitleDecidesBetweenRoles` | src/utils/validationSchemas.js:51-80 | a faculty registration without a title is invalid; removing the faculty-only fields and switching to student keeps a valid one valid |
| `ValidationSchemas.RegistrationCarriesLogin` | src/utils/validationSchemas.js:83-86 | the e-mail and password of every valid registration form a valid login |
| `ValidationSchemas.ExamplePasswordAccepted` | src/utils/validationSchemas.js:9-12 | "Password123!" matches the pattern |
| `UploadMiddleware.FileFilter` | src/middleware/uploadMiddleware.js:51-59 | accepts exactly image/jpeg, image/jpg and image/png; any other type is refused with the invalid-format error |
| `UploadMiddleware.UploadError` | src/middleware/uploadMiddleware.js:51-68 | of the two checks the upload middleware configures, the MIME filter and the size limit, an upload fails exactly when its type is refused (checked first) or it is larger than the limit |
| `UploadMiddleware.RejectionClassifiedAs400` | src/middleware/uploadMiddleware.js:57 | the filter's rejection is answered with 400 and its own message unchanged |
| `UploadMiddleware.UploadFailuresAre400` | src/middleware/uploadMiddleware.js:62-68 | every failed upload is a 400 naming the violated constraint |
| `UploadMiddleware.SizeLimitMatchesMessage` | src/middleware/uploadMiddleware.js:65 | the limit is 5242880 bytes and the size message says "5MB" |
| `DepartmentController.Referencing` | src/controllers/departmentController.js:128-129 | every row returned comes from the input and references the department, and every input row that references it is returned |
| `DepartmentController.NoneReferencing` | src/controllers/departmentController.js:127-131 | the count of referencing rows is zero exactly when no row refers to the department |
| `DepartmentController.CountReferencing` | src/controllers/departmentController.js:128-129 | the counting loop returns the number of referencing rows and is zero exactly when none refers |
| `DepartmentController.RowLeTransitive` | src/controllers/departmentController.js:18 | ordering by (faculty name, name) is transitive |
| `DepartmentController.RowLeTotal` | src/controllers/departmentController.js:18 | any two rows are comparable under (faculty name, name) |
| `DepartmentController.InsertRow` | src/controllers/departmentController.js:16-19 | inserting into a sorted listing keeps it sorted and adds exactly that row |
| `DepartmentController.SortRows` | src/controllers/departmentController.js:16-19 | the sorted listing is ordered by (faculty name, name) and is a permutation of its input |
| `DepartmentController.CollectRows` | src/controllers/departmentController.js:16 | one row per department, each showing it as stored, none missing |
| `DepartmentController.GetAllDepartments` | src/controllers/departmentController.js:15-26 | 200 with every department once, as stored, ordered by (faculty name, name), and `count` equal to the number of rows |
| `DepartmentController.GetDepartmentById` | src/controllers/departmentController.js:31-57 | 404 exactly for an unknown id; every known id is answered 200 with the department, all its faculty members, and its students: all of them when there are ten or fewer, otherwise exactly ten distinct ones of them (a sub-multiset of its referencing rows) |
| `DepartmentController.CreateDepartment` | src/controllers/departmentController.js:62-82 | a taken code gives 400 and no change; with a free code and both other fields present, a value longer than 255 characters with anything but spaces past the 255th gives the database's too-long error, a code that equals an existing one once cut to 255 characters gives the unique-index error, each with no change; otherwise the reply is 201 with exactly one new department under the next id, each value cut to 255 characters; students and faculty are untouched; the store invariant (unique codes, ids below the next id, intact references, values within the column width) is kept |
| `DepartmentController.UpdateDepartment` | src/controllers/departmentController.js:87-115 | unknown id gives 404 and no change; a new code owned by another department gives 400 and no change; otherwise a changed value longer than 255 characters with anything but spaces past the 255th gives the database's too-long error, and a changed code that, cut to 255 characters, equals another department's gives the unique-index error, each with no change; in every other case the reply is 200, each field is replaced only by a changed truthy value cut to 255 characters, and the id and every other department stay as they were; the invariant is kept |
| `DepartmentController.TooLongIs500` | src/middleware/error.js:66-69 | a value too wide for its VARCHAR(255) column (SQLSTATE 22001) matches no rule and is answered 500 with the database's message |
| `DepartmentController.DuplicateCodeIs400` | src/middleware/error.js:42-46 | a stored code that collides on the unique index (SQLSTATE 23505) is answered 400 with the fixed duplicate message |
| `DepartmentController.DeleteDepartment` | src/controllers/departmentController.js:120-145 | unknown id gives 404; a referenced department gives 400 and nothing is removed; otherwise exactly that department is removed and the invariant is kept |
| `DepartmentController.GetDepartmentStats` | src/controllers/departmentController.js:150-175 | 404 exactly for an unknown id; every known id is answered 200 with the numbers of students and faculty referencing the department, each positive exactly when some row refers to it |
| `DepartmentController.DeletableIffStatsZero` | src/controllers/departmentController.js:120-172 | a department can be deleted exactly when both of its statistics are zero |
| `DepartmentController.HandlerErrorsPassThrough` | src/controllers/departmentController.js:50-135 | the 404 and 400 errors the handlers raise reach the client with their own status and message |
| `DepartmentRoutes.FindRoute` | src/routes/departmentRoutes.js:14-21 | the route chosen matches the verb and path and no earlier route does; no route is chosen exactly when none matches |
| `DepartmentRoutes.RoutingTable` | src/routes/departmentRoutes.js:14-21 | the router picks the route an independent table gives: the root for list and create, one segment for show, update and delete, one segment plus "stats" for statistics, nothing else; HEAD is routed as GET |
| `DepartmentRoutes.HeadServedAsGet` | src/routes/departmentRoutes.js:14-21 | a HEAD request finds the same route as the GET request for the path and passes the same guards to the same handler, since GET routes also serve HEAD |
| `DepartmentRoutes.StatsIsAnIdOnItsOwn` | src/routes/departmentRoutes.js:15-21 | "/stats" is served as a department id, and "/7/stats" as the statistics |
| `DepartmentRoutes.RouteTableWellOrdered` | src/routes/departmentRoutes.js:18-21 | on every route `protect` runs before `authorize`, so `authorize` always finds `req.user` set |
| `DepartmentRoutes.PublicAndAdminRoutes` | src/routes/departmentRoutes.js:13-21 | exactly the list and show routes are public; every other route, including every non-GET one, is guarded by `protect` then `authorize('admin')` |
| `DepartmentRoutes.RunGuards` | src/routes/departmentRoutes.js:18-21 | guards either reject with 401 or 403 or pass the request on with the same header, with a user set once `protect` has run |
| `DepartmentRoutes.AdminOnlyAccess` | src/routes/departmentRoutes.js:18-21 | the admin guards pass exactly an admin's request with a valid token of an existing user, with `req.user` set to that user; no token or a failing token gives 401 |
| `DepartmentRoutes.NonAdminsForbidden` | src/routes/departmentRoutes.js:18-21 | a student or faculty member with a valid token is refused with 403 |
| `DepartmentRoutes.Dispatch` | src/routes/departmentRoutes.js:14-21 | a request reaches the handler of the route the router finds; public handlers are always reached with the request unchanged; admin handlers exactly for admins; refusals are 401 or 403 |
| `DepartmentRoutes.ParseId` | src/controllers/departmentController.js:32 | the database reads the `:id` segment as an integer key exactly when it is a non-empty digit string, and the key is never negative |
| `DepartmentRoutes.ParseDecimalId` | src/controllers/departmentController.js:32 | the `:id` segment the database reads as an integer key: every id written in decimal reads back as itself |
| `DepartmentRoutes.InvalidKeyIs400` | src/middleware/error.js:36-40 | a non-numeric id is answered with 400 and the invalid-id message, whatever the segment holds |
| `DepartmentRoutes.RunHandler` | src/routes/departmentRoutes.js:14-21 | each handler is the controller operation of its route: the sorted complete listing for the root, show, statistics, update and delete on the `:id` read as an integer key (a 22P02 error otherwise), create on the body; the read-only handlers leave the store unchanged, a failed one changes nothing, and every handler keeps the store invariant |
| `DepartmentRoutes.Respond` | src/middleware/error.js:66-69 | a reached handler's reply is sent under `error` exactly when it fails; only the writing handlers change the store, and only on success; the store invariant is kept |
| `DepartmentRoutes.Finish` | src/middleware/error.js:66-69 | a handler's success keeps its status and its text under `message`; a failure is answered by the error middleware, with its status and its text under `error` |
| `DepartmentRoutes.Serve` | src/routes/departmentRoutes.js:14-21 | only an authenticated admin can change the store; a refused or failed request leaves it unchanged; the store invariant is kept; only unmatched paths fall through the router; a guard's refusal carries its text under `message`, while a handler's reply uses `message` on success and `error` exactly on failure |

## Left out

- JSON Web Token signing and verification: `jwt.verify` is an oracle returning an id or a failure, and `src/utils/jwtHelper.js` is not part of this model.
- The database: `User.findByPk` is an oracle, and the departments, students and faculty are an in-memory store. Each handler is atomic. The check-then-create race between two concurrent creates is not modelled.
- The exact texts of ORM errors are assumed, not taken from the library: the not-null validation items, the `undefined`-key message, the 22P02 and 22001 messages, and the 23505 message and item. Only their names, parent codes and item lists matter to the error middleware.
- Logging, `console.log` and the stack trace in the error middleware: output only.
- `src/utils/errorResponse.js` is not part of this model. `ErrorResponse(message, status)` is modelled as an error that carries `statusCode`.
- `ErrorMiddleware.ErrorHandler`: a validation error without an `errors` property makes the handler itself throw. The model always has an item list, possibly empty.
- `DepartmentController.GetDepartmentById`: with more than ten students it states that ten distinct students of the department are shown, but not which ten. That depends on the database's row order, which is not modelled.
- `DepartmentController.SortRows`: the database's string collation is modelled as code-point order.
- `DepartmentController.UpdateDepartment`: body fields are strings or absent, as for create. Numbers, `null` and other JSON values in the body are not modelled.
- `DepartmentController.CreateDepartment`: body fields are strings or absent. Numbers, `null` and other JSON values in the body are not modelled.
- `DepartmentController.CreateDepartment`: an insert the database refuses (too long, or a duplicate code after cutting) leaves the next id where it was. PostgreSQL may already have drawn a value from the sequence, so later ids can skip one; this is not modelled.
- `DepartmentController.UpdateDepartment`: the reply shows the department as stored. Whether the ORM's instance echoes a cut value as stored or as supplied is not modelled.
- `DepartmentController.UpdateDepartment`: the `created_at` and `updated_at` timestamps the ORM writes (`src/models/department.js:28-33` keeps its default timestamps) are not modelled.
- `DepartmentRoutes.ParseId`: only plain digit strings are read as ids. PostgreSQL also accepts surrounding blanks and a sign, and it answers ids beyond the 32-bit range with a different error code. Neither is modelled.
- Route mounting: paths are relative to the router's mount point. `src/app.js` does not mount the department router; the handler comments name `/api/v1/departments`. Express's trailing-slash and case-insensitive matching are not modelled. An unmatched path is reported as falling through the router, and Express's final 404 page is not modelled. OPTIONS requests are not modelled: `src/app.js:45-47` answers every one of them with 204 before any router runs.
- `DepartmentRoutes.Serve`: replies carry only the status, success flag and text; the `data` and `count` fields are stated by the handlers' own contracts. A HEAD reply has the GET reply's status, and Node sends it without a body; the model keeps the body.
- `ValidationSchemas.ValidRegister`: `department_id` is accepted only as a JSON integer. Joi's conversion of numeric strings, its non-integer numbers and its unsafe-integer checks are not modelled.
- `ValidationSchemas.RegisterFieldRules`: lengths are counted in characters, while Joi counts UTF-16 code units. The two differ only outside the Basic Multilingual Plane.
- The Joi e-mail grammar and `Joi.date()` conversion against the clock are oracles; `now` is a parameter.
- Whether validation stops at the first error or reports all of them is not modelled, because only validity is.
- `UploadMiddleware.UploadError`: only the MIME filter and the size limit are modelled as failures. An upload also fails on a file field other than the one the route names (Multer's LIMIT_UNEXPECTED_FILE), on a format the cloud storage's `allowed_formats` refuses, and on any storage failure; the field name is set where the route uses the middleware, and the storage is a foreign service.
- Cloud storage parameters of the upload (folder, formats, resize, public id): configuration handed to a foreign service. Multer's other limits are not configured in the source.
- `src/scripts/seed.js`, `src/utils/emailService.js`, `src/models/index.js` and the rest of `src/app.js` (CORS, helmet, rate limiter, server start) are outside the modelled core.

=== FILE: auth_middleware.dfy ===
/** The access guard `protect` and the role gate `authorize(...roles)`.
    Token verification and the user lookup are oracles passed in as
    functions: `verify` stands for `jwt.verify` with the process secret and
    `findUser` for `User.findByPk`, including the case that it throws. */
module AuthMiddleware {
  import opened Wrappers
  import opened Strings

  /** The account record `User.findByPk` returns; only `role` is read here. */
  datatype User = User(id: int, role: string)

  /** The parts of an Express request the guards read and write:
      the `Authorization` header and `req.user`. */
  datatype Request = Request(authorization: Option<string>, user: Option<User>)

  datatype VerifyFailure = InvalidSignature | Expired | Malformed

  /** What `jwt.verify(token, secret)` does: return the payload's `id`, or throw. */
  datatype Verification = Decoded(id: int) | VerifyFailed(failure: VerifyFailure)

  /** What awaiting `User.findByPk(id)` does: a user, null, or a rejection. */
  datatype Lookup = Found(user: User) | NoSuchUser | LookupThrew

  /** A middleware either calls `next()` with the (possibly updated) request
      or answers with a status and a message itself. */
  datatype Outcome = Next(req: Request) | Reject(status: int, message: string)

  const NoTokenMsg := "Bu işlem için giriş yapmalısınız."
  const UserGoneMsg := "Bu tokena ait kullanıcı artık yok."
  const BadTokenMsg := "Geçersiz token, lütfen tekrar giriş yapın."
  const ForbiddenPrefix := "Bu işlem için yetkiniz yok. Gereken: "

  /** The token `protect` takes from the header: the second space-separated
      piece of a header that starts with "Bearer", when that piece is not
      empty (an empty string is as falsy as `undefined`). */
  function ExtractToken(authorization: Option<string>): (token: Option<string>)
    ensures token.Some? ==> authorization.Some? && StartsWith(authorization.value, "Bearer")
    ensures token.Some? ==> token.value != "" && ' ' !in token.value
  {
    if authorization.Some? && StartsWith(authorization.value, "Bearer") then
      var pieces := Split(authorization.value, ' ');
      if |pieces| >= 2 && pieces[1] != "" then Some(pieces[1]) else None
    else None
  }

  /** The header a client sends for token `t`. */
  function BearerHeader(t: string): string {
    "Bearer " + t
  }

  /** A well-formed bearer header yields exactly its token back. */
  lemma ExtractBearerHeader(t: string)
    requires t != "" && ' ' !in t
    ensures ExtractToken(Some(BearerHeader(t))) == Some(t)
  {
    var parts := ["Bearer", t];
    assert Join(parts, [' ']) == BearerHeader(t);
    SplitJoin(parts, ' ');
  }

  /** The second piece of a split at spaces is the text after the first
      space, up to the next space or the end; without a space there is none. */
  lemma SecondPiece(h: string)
    ensures IndexOf(h, ' ') == |h| ==> |Split(h, ' ')| == 1
    ensures IndexOf(h, ' ') < |h| ==>
      var rest := h[IndexOf(h, ' ') + 1..];
      |Split(h, ' ')| >= 2 && Split(h, ' ')[1] == rest[..IndexOf(rest, ' ')]
  {
    var i := IndexOf(h, ' ');
    SplitAtFirst(h, ' ');
    if i < |h| {
      var rest := h[i + 1..];
      SplitAtFirst(rest, ' ');
      if IndexOf(rest, ' ') == |rest| {
        assert rest[..|rest|] == rest;
      }
    }
  }

  /** The token as index arithmetic: the text after the first space, up to
      the next space or the end, provided it is not empty. */
  lemma ExtractTokenByIndex(h: string)
    ensures ExtractToken(Some(h)) ==
      (var i := IndexOf(h, ' ');
       if StartsWith(h, "Bearer") && i < |h| && IndexOf(h[i + 1..], ' ') > 0
       then Some(h[i + 1..][..IndexOf(h[i + 1..], ' ')])
       else None)
  {
    SecondPiece(h);
  }

  /** A header without a space has no second piece. */
  lemma NoSpaceGivesNoToken(h: string)
    requires ' ' !in h
    ensures ExtractToken(Some(h)) == None
  {
    ExtractTokenByIndex(h);
  }

  /** Two spaces after the scheme leave the second piece empty. */
  lemma DoubleSpaceGivesNoToken(scheme: string, rest: string)
    requires ' ' !in scheme
    ensures ExtractToken(Some(scheme + "  " + rest)) == None
  {
    var h := scheme + "  " + rest;
    assert h[..|scheme|] == scheme && h[|scheme|] == ' ';
    IndexOfFirst(h, ' ', |scheme|);
    assert h[|scheme| + 1..] == " " + rest;
    ExtractTokenByIndex(h);
  }

  /** "Bearer", "BearerX" and "Bearer  x" yield no token, nor does a missing header. */
  lemma MalformedHeadersGiveNoToken()
    ensures ExtractToken(None) == None
    ensures ExtractToken(Some("Bearer")) == None
    ensures ExtractToken(Some("BearerX")) == None
    ensures ExtractToken(Some("Bearer  x")) == None
  {
    NoSpaceGivesNoToken("Bearer");
    NoSpaceGivesNoToken("BearerX");
    DoubleSpaceGivesNoToken("Bearer", "x");
  }

  /** `protect`: token extraction, verification, the user lookup, and on
      success `req.user` set to the user found for the token's id. */
  function Protect(req: Request, verify: string -> Verification, findUser: int -> Lookup): (r: Outcome)
    ensures ExtractToken(req.authorization).None? ==> r == Reject(401, NoTokenMsg)
    ensures r.Reject? ==> r.status == 401
    ensures r.Next? <==>
      && ExtractToken(req.authorization).Some?
      && verify(ExtractToken(req.authorization).value).Decoded?
      && findUser(verify(ExtractToken(req.authorization).value).id).Found?
    ensures r.Next? ==>
      r.req == req.(user := Some(findUser(verify(ExtractToken(req.authorization).value).id).user))
    ensures ExtractToken(req.authorization).Some? && verify(ExtractToken(req.authorization).value).VerifyFailed? ==>
      r == Reject(401, BadTokenMsg)
  {
    match ExtractToken(req.authorization)
    case None => Reject(401, NoTokenMsg)
    case Some(token) =>
      match verify(token)
      case VerifyFailed(_) => Reject(401, BadTokenMsg)
      case Decoded(id) =>
        match findUser(id)
        case LookupThrew => Reject(401, BadTokenMsg)
        case NoSuchUser => Reject(401, UserGoneMsg)
        case Found(u) => Next(req.(user := Some(u)))
  }

  /** Without a token the answer does not depend on the oracles at all, so
      neither is consulted. */
  lemma NoTokenIgnoresOracles(req: Request, v1: string -> Verification, v2: string -> Verification,
                              f1: int -> Lookup, f2: int -> Lookup)
    requires ExtractToken(req.authorization).None?
    ensures Protect(req, v1, f1) == Protect(req, v2, f2) == Reject(401, NoTokenMsg)
  {
  }

  /** Every verification failure and every lookup failure end in the same
      generic 401, whichever way they failed; a deleted user gets its own. */
  lemma ProtectFailureMessages(req: Request, verify: string -> Verification, findUser: int -> Lookup)
    requires ExtractToken(req.authorization).Some?
    ensures var t := ExtractToken(req.authorization).value;
      (verify(t).VerifyFailed? ==> Protect(req, verify, findUser) == Reject(401, BadTokenMsg))
      && (verify(t).Decoded? && findUser(verify(t).id) == LookupThrew ==>
            Protect(req, verify, findUser) == Reject(401, BadTokenMsg))
      && (verify(t).Decoded? && findUser(verify(t).id) == NoSuchUser ==>
            Protect(req, verify, findUser) == Reject(401, UserGoneMsg))
  {
  }

  /** `authorize(...roles)` on a request `protect` has passed: continue with
      the request untouched iff the user's role is listed, otherwise 403
      with the listed roles joined by ", ". */
  function Authorize(roles: seq<string>, req: Request): (r: Outcome)
    requires req.user.Some?
    ensures r.Next? <==> req.user.value.role in roles
    ensures r.Next? ==> r.req == req
    ensures r.Reject? ==> r == Reject(403, ForbiddenPrefix + Join(roles, ", "))
  {
    if req.user.value.role in roles then Next(req)
    else Reject(403, ForbiddenPrefix + Join(roles, ", "))
  }

  /** With no roles listed every user is refused. */
  lemma AuthorizeNoRolesRejectsAll(req: Request)
    requires req.user.Some?
    ensures Authorize([], req) == Reject(403, ForbiddenPrefix)
  {
  }

  /** `authorize('admin')` turns students and faculty away with 403 and lets
      admins through. */
  lemma AuthorizeAdminOnly(req: Request)
    requires req.user.Some?
    ensures req.user.value.role == "admin" ==> Authorize(["admin"], req) == Next(req)
    ensures req.user.value.role in {"student", "faculty"} ==>
      Authorize(["admin"], req) == Reject(403, ForbiddenPrefix + "admin")
  {
  }
}

=== FILE: department_controller.dfy ===
/** The department handlers as operations on an abstract store: the
    departments table keyed by id, the next id its sequence hands out, and
    the student and faculty rows reduced to their `departmentId`. Each
    handler either sends a success reply or passes an error to `next`, and
    the error middleware answers the latter. Every operation is atomic. */
module DepartmentController {
  import opened Wrappers
  import opened Strings
  import opened ErrorMiddleware

  datatype Dept = Dept(name: string, code: string, facultyName: string)

  /** A student or faculty row, as far as departments see it. */
  datatype Member = Member(id: int, departmentId: Option<int>)

  datatype Store = Store(depts: map<int, Dept>, nextId: int, students: seq<Member>, faculty: seq<Member>)

  /** A department row as the queries return it. */
  datatype Row = Row(id: int, dept: Dept)

  /** The `data` part of a success reply. */
  datatype Data =
    | DeptList(count: int, rows: seq<Row>)
    | DeptDetail(row: Row, students: seq<Member>, facultyMembers: seq<Member>)
    | DeptData(row: Row)
    | NoData
    | DeptStats(row: Row, totalStudents: nat, totalFaculty: nat)

  /** `res.status(status).json({ success: true, message, data })`, or
      `next(err)`. */
  datatype Outcome = Sent(status: int, message: Option<string>, data: Data) | Passed(err: ErrorRecord)

  /** The store after a handler ran, and what the handler did. */
  datatype Step = Step(store: Store, outcome: Outcome)

  /** The fields of a create or update body; absent ones are None. */
  datatype Body = Body(name: Option<string>, code: Option<string>, facultyName: Option<string>)

  const NotFoundMsg := "Bölüm bulunamadı."
  const CodeTakenMsg := "Bu kod ile kayıtlı bir bölüm zaten var."
  const CodeConflictMsg := "Bu kod ile kayıtlı başka bir bölüm var."
  const InUseMsg := "Bu bölüme kayıtlı öğrenci veya " + "öğretim üyesi bulunmaktadır. " + "Önce ilişkileri kaldırın."
  const CreatedMsg := "Bölüm başarıyla oluşturuldu."
  const UpdatedMsg := "Bölüm başarıyla güncellendi."
  const DeletedMsg := "Bölüm başarıyla silindi."
  /** What the ORM throws for `findOne({ where: { code: undefined } })`. */
  const UndefinedCodeMsg := "WHERE parameter \"code\" has invalid \"undefined\" value"

  /** The number of students shown with a department. */
  const StudentPreview := 10

  // ----- store predicates -----

  predicate CodeTaken(depts: map<int, Dept>, code: string) {
    exists id | id in depts :: depts[id].code == code
  }

  /** The unique index on `code`. */
  predicate UniqueCodes(depts: map<int, Dept>) {
    forall a, b | a in depts && b in depts && a != b :: depts[a].code != depts[b].code
  }

  predicate RefersTo(ms: seq<Member>, id: int) {
    exists i | 0 <= i < |ms| :: ms[i].departmentId == Some(id)
  }

  /** Every `departmentId` names an existing department. */
  predicate RefsIntact(s: Store) {
    && (forall i | 0 <= i < |s.students| :: s.students[i].departmentId.Some? ==> s.students[i].departmentId.value in s.depts)
    && (forall i | 0 <= i < |s.faculty| :: s.faculty[i].departmentId.Some? ==> s.faculty[i].departmentId.value in s.depts)
  }

  /** `DataTypes.STRING` is a VARCHAR(255) column in PostgreSQL, whose
      limit counts characters. */
  const ColumnWidth := 255

  /** A value the column can hold as it is. */
  predicate Within(v: string) {
    |v| <= ColumnWidth
  }

  predicate DeptWithin(d: Dept) {
    Within(d.name) && Within(d.code) && Within(d.facultyName)
  }

  /** A value the column accepts: PostgreSQL refuses a longer value unless
      everything past the width is spaces, which it then drops. */
  predicate Fits(v: string) {
    Within(v) || forall i | ColumnWidth <= i < |v| :: v[i] == ' '
  }

  predicate DeptFits(d: Dept) {
    Fits(d.name) && Fits(d.code) && Fits(d.facultyName)
  }

  /** What the column stores of a value it accepts: the value itself when it
      is within the width, and otherwise its first 255 characters, the rest
      being spaces. */
  function Cut(v: string): (r: string)
    ensures Within(r) && r <= v
    ensures Within(v) <==> r == v
    ensures Fits(v) ==> forall i | |r| <= i < |v| :: v[i] == ' '
  {
    if |v| <= ColumnWidth then v else v[..ColumnWidth]
  }

  function CutDept(d: Dept): (r: Dept)
    ensures DeptWithin(r)
  {
    Dept(Cut(d.name), Cut(d.code), Cut(d.facultyName))
  }

  /** PostgreSQL's SQLSTATE 22001 for a value wider than its column, as the
      ORM wraps it. */
  const TooLongMsg := "value too long for type " + "character varying(255)"
  const TooLongError := ErrorRecord("SequelizeDatabaseError", TooLongMsg, None, Some("22001"), None, [])

  /** PostgreSQL's SQLSTATE 23505 on the unique index of `code`, as the ORM
      wraps it. */
  const DuplicateCodeError := ErrorRecord("SequelizeUniqueConstraintError", "Validation error",
                                          None, Some("23505"), None, ["code must be unique"])

  /** What the database guarantees of the store: unique codes, ids below the
      next id the sequence hands out, intact references, and no value wider
      than its column. */
  predicate Consistent(s: Store) {
    && UniqueCodes(s.depts)
    && (forall id | id in s.depts :: id < s.nextId)
    && RefsIntact(s)
    && (forall id | id in s.depts :: DeptWithin(s.depts[id]))
  }

  /** JavaScript truthiness of an optional string. */
  predicate TruthyText(v: Option<string>) {
    v.Some? && v.value != ""
  }

  /** A supplied value the update writes: the ORM sends only the fields
      whose value changes. */
  predicate Written(supplied: Option<string>, current: string) {
    TruthyText(supplied) && supplied.value != current
  }

  /** `supplied || current`, as the column stores it. */
  function Merge(supplied: Option<string>, current: string): string {
    if Written(supplied, current) then Cut(supplied.value) else current
  }

  /** The rows of `ms` that reference department `id`, in order. */
  function Referencing(ms: seq<Member>, id: int): (r: seq<Member>)
    ensures |r| <= |ms|
    ensures forall i | 0 <= i < |r| :: r[i] in ms && r[i].departmentId == Some(id)
    ensures forall i | 0 <= i < |ms| :: ms[i].departmentId == Some(id) ==> ms[i] in r
    decreases |ms|
  {
    if |ms| == 0 then []
    else
      var rest := Referencing(ms[1..], id);
      assert forall i | 1 <= i < |ms| :: ms[i] == ms[1..][i - 1];
      if ms[0].departmentId == Some(id) then [ms[0]] + rest else rest
  }

  /** No referencing row is exactly no reference. */
  lemma NoneReferencing(ms: seq<Member>, id: int)
    ensures |Referencing(ms, id)| == 0 <==> !RefersTo(ms, id)
  {
    if RefersTo(ms, id) {
      var i :| 0 <= i < |ms| && ms[i].departmentId == Some(id);
      assert ms[i] in Referencing(ms, id);
    }
  }

  /** `Student.count` / `Faculty.count` with `where: { departmentId: id }`. */
  method CountReferencing(ms: seq<Member>, id: int) returns (n: nat)
    ensures n == |Referencing(ms, id)|
    ensures n > 0 <==> RefersTo(ms, id)
  {
    n := 0;
    var i := |ms|;
    while i > 0
      invariant 0 <= i <= |ms|
      invariant n == |Referencing(ms[i..], id)|
    {
      i := i - 1;
      assert ms[i..][1..] == ms[i + 1..];
      if ms[i].departmentId == Some(id) {
        n := n + 1;
      }
    }
    assert ms[0..] == ms;
    NoneReferencing(ms, id);
  }

  // ----- getAllDepartments: ordered by (faculty_name, name) -----

  predicate StrLt(a: string, b: string) {
    StrLe(a, b) && a != b
  }

  /** `order: [['faculty_name', 'ASC'], ['name', 'ASC']]`. */
  predicate RowLe(a: Row, b: Row) {
    || StrLt(a.dept.facultyName, b.dept.facultyName)
    || (a.dept.facultyName == b.dept.facultyName && StrLe(a.dept.name, b.dept.name))
  }

  lemma RowLeTotal(a: Row, b: Row)
    ensures RowLe(a, b) || RowLe(b, a)
  {
    StrLeTotal(a.dept.facultyName, b.dept.facultyName);
    StrLeTotal(a.dept.name, b.dept.name);
  }

  lemma RowLeTransitive(a: Row, b: Row, c: Row)
    requires RowLe(a, b) && RowLe(b, c)
    ensures RowLe(a, c)
  {
    var fa, fb, fc := a.dept.facultyName, b.dept.facultyName, c.dept.facultyName;
    if fa == fb && fb == fc {
      StrLeTransitive(a.dept.name, b.dept.name, c.dept.name);
    } else {
      if fa != fb && fb != fc {
        StrLeTransitive(fa, fb, fc);
      }
      if fa == fc {
        StrLeAntisymmetric(fa, fb);
      }
    }
  }

  predicate SortedRows(rs: seq<Row>) {
    forall i, j | 0 <= i < j < |rs| :: RowLe(rs[i], rs[j])
  }

  /** A head below every element of a sorted tail keeps it sorted. */
  lemma SortedCons(h: Row, t: seq<Row>)
    requires SortedRows(t)
    requires forall j | 0 <= j < |t| :: RowLe(h, t[j])
    ensures SortedRows([h] + t)
  {
    var r := [h] + t;
    forall i, j | 0 <= i < j < |r|
      ensures RowLe(r[i], r[j])
    {
      assert r[j] == t[j - 1];
      if i > 0 {
        assert r[i] == t[i - 1];
      }
    }
  }

  /** Below the head of a sorted sequence is below all of it. */
  lemma BelowHeadBelowAll(x: Row, rs: seq<Row>)
    requires SortedRows(rs) && |rs| > 0 && RowLe(x, rs[0])
    ensures forall j | 0 <= j < |rs| :: RowLe(x, rs[j])
  {
    forall j | 0 < j < |rs|
      ensures RowLe(x, rs[j])
    {
      RowLeTransitive(x, rs[0], rs[j]);
    }
  }

  /** The head of a sorted sequence stays below its tail with `x` added. */
  lemma HeadBelowInserted(rs: seq<Row>, x: Row, tail: seq<Row>)
    requires SortedRows(rs) && |rs| > 0 && RowLe(rs[0], x)
    requires forall z :: z in tail ==> z == x || z in rs[1..]
    ensures forall j | 0 <= j < |tail| :: RowLe(rs[0], tail[j])
  {
    forall z | z in rs[1..]
      ensures RowLe(rs[0], z)
    {
      var k := IndexOfRow(z, rs[1..]);
      assert rs[k + 1] == z;
    }
    forall j | 0 <= j < |tail|
      ensures RowLe(rs[0], tail[j])
    {
      assert tail[j] in tail;
    }
  }

  function InsertRow(x: Row, rs: seq<Row>): (r: seq<Row>)
    requires SortedRows(rs)
    ensures SortedRows(r)
    ensures multiset(r) == multiset(rs) + multiset{x}
    ensures forall z :: z in r <==> z == x || z in rs
    decreases |rs|
  {
    if |rs| == 0 then [x]
    else if RowLe(x, rs[0]) then
      BelowHeadBelowAll(x, rs);
      SortedCons(x, rs);
      [x] + rs
    else
      RowLeTotal(x, rs[0]);
      var tail := InsertRow(x, rs[1..]);
      HeadBelowInserted(rs, x, tail);
      SortedCons(rs[0], tail);
      assert rs == [rs[0]] + rs[1..];
      [rs[0]] + tail
  }

  function SortRows(rs: seq<Row>): (r: seq<Row>)
    ensures SortedRows(r)
    ensures multiset(r) == multiset(rs)
    ensures forall z :: z in r <==> z in rs
    decreases |rs|
  {
    if |rs| == 0 then []
    else
      assert rs == [rs[0]] + rs[1..];
      InsertRow(rs[0], SortRows(rs[1..]))
  }

  /** Some element of a non-empty set. */
  method Pick<T>(ks: set<T>) returns (k: T)
    requires ks != {}
    ensures k in ks
  {
    // Comparing with an explicitly typed empty set hands the verifier the
    // extensionality fact that yields a witness for the choice below.
    var none: set<T> := {};
    assert ks != none;
    var x :| x in ks;
    k := x;
  }

  /** Where a row occurs in a sequence. */
  function IndexOfRow(z: Row, rs: seq<Row>): (k: nat)
    requires z in rs
    ensures k < |rs| && rs[k] == z
  {
    if rs[0] == z then 0 else IndexOfRow(z, rs[1..]) + 1
  }

  /** Every row shows a department exactly as the table holds it. */
  predicate RowsFaithful(depts: map<int, Dept>, rows: seq<Row>) {
    forall r | r in rows :: r.id in depts && depts[r.id] == r.dept
  }

  /** Every department of the table has its row. */
  predicate RowsComplete(depts: map<int, Dept>, rows: seq<Row>) {
    forall id | id in depts :: Row(id, depts[id]) in rows
  }

  /** One row per department, in no particular order. */
  method CollectRows(depts: map<int, Dept>) returns (rows: seq<Row>)
    ensures |rows| == |depts|
    ensures RowsFaithful(depts, rows) && RowsComplete(depts, rows)
  {
    var rest := depts.Keys;
    rows := [];
    while rest != {}
      invariant rest <= depts.Keys
      invariant |rows| + |rest| == |depts|
      invariant RowsFaithful(depts, rows)
      invariant forall id | id in depts && id !in rest :: Row(id, depts[id]) in rows
      decreases |rest|
    {
      var id := Pick(rest);
      rows := rows + [Row(id, depts[id])];
      rest := rest - {id};
    }
  }

  /** `getAllDepartments`: every department once, ordered by faculty name
      and then name, with `count` the number of rows. */
  method GetAllDepartments(s: Store) returns (o: Outcome)
    ensures o.Sent? && o.status == 200 && o.message.None? && o.data.DeptList?
    ensures o.data.count == |o.data.rows| == |s.depts|
    ensures SortedRows(o.data.rows)
    ensures RowsFaithful(s.depts, o.data.rows) && RowsComplete(s.depts, o.data.rows)
  {
    var rows := CollectRows(s.depts);
    var sorted := SortRows(rows);
    assert |sorted| == |multiset(sorted)| == |multiset(rows)| == |rows|;
    o := Sent(200, None, DeptList(|sorted|, sorted));
  }

  // ----- getDepartmentById -----

  /** `getDepartmentById`: the department with its faculty members and at
      most the first ten of its students, or 404. */
  function GetDepartmentById(s: Store, id: int): (o: Outcome)
    ensures id !in s.depts <==> o == Passed(ErrorResponse(NotFoundMsg, 404))
    ensures id in s.depts ==> o.Sent?
    ensures o.Sent? ==>
      && o.status == 200 && o.data.DeptDetail? && o.data.row == Row(id, s.depts[id])
      && o.data.facultyMembers == Referencing(s.faculty, id)
      && |o.data.students| <= StudentPreview
      && (forall i | 0 <= i < |o.data.students| ::
            o.data.students[i] in s.students && o.data.students[i].departmentId == Some(id))
      && (|Referencing(s.students, id)| <= StudentPreview ==> o.data.students == Referencing(s.students, id))
      && (|Referencing(s.students, id)| > StudentPreview ==> |o.data.students| == StudentPreview)
      && multiset(o.data.students) <= multiset(Referencing(s.students, id))
  {
    if id !in s.depts then Passed(ErrorResponse(NotFoundMsg, 404))
    else
      var students := Referencing(s.students, id);
      var shown := if |students| <= StudentPreview then students else students[..StudentPreview];
      assert forall i | 0 <= i < |shown| :: shown[i] == students[i];
      assert |students| > StudentPreview ==> students == shown + students[StudentPreview..];
      Sent(200, None, DeptDetail(Row(id, s.depts[id]), shown, Referencing(s.faculty, id)))
  }

  // ----- createDepartment -----

  /** The errors the ORM raises when `Department.create` is given a missing
      non-null field: a validation error with one item per missing field. */
  function NotNullError(body: Body): ErrorRecord {
    var items := (if body.name.None? then ["Department.name cannot be null"] else [])
               + (if body.facultyName.None? then ["Department.faculty_name cannot be null"] else []);
    ErrorRecord("SequelizeValidationError", "notNull Violation", None, None, None, items)
  }

  /** A create body that passed the code check and has every field. */
  predicate CreateReady(s: Store, body: Body) {
    && body.code.Some? && !CodeTaken(s.depts, body.code.value)
    && body.name.Some? && body.facultyName.Some?
  }

  /** The department a complete body describes, before the column cuts it. */
  function Given(body: Body): Dept
    requires body.name.Some? && body.code.Some? && body.facultyName.Some?
  {
    Dept(body.name.value, body.code.value, body.facultyName.value)
  }

  /** `createDepartment`: refuse a code already in use with 400; otherwise
      add the department under the next id, as its columns store it, and
      answer 201, unless the ORM finds a missing field or the database a
      value it cannot hold or a stored code equal to an existing one. */
  function CreateDepartment(s: Store, body: Body): (r: Step)
    ensures r.store.students == s.students && r.store.faculty == s.faculty
    ensures r.outcome.Passed? ==> r.store == s
    ensures body.code.Some? && CodeTaken(s.depts, body.code.value) <==>
      r.outcome == Passed(ErrorResponse(CodeTakenMsg, 400))
    ensures r.outcome == Passed(TooLongError) <==> CreateReady(s, body) && !DeptFits(Given(body))
    ensures r.outcome == Passed(DuplicateCodeError) <==>
      CreateReady(s, body) && DeptFits(Given(body)) && CodeTaken(s.depts, Cut(body.code.value))
    ensures r.outcome.Sent? <==>
      CreateReady(s, body) && DeptFits(Given(body)) && !CodeTaken(s.depts, Cut(body.code.value))
    ensures r.outcome.Sent? ==>
      var d := CutDept(Given(body));
      && r.outcome == Sent(201, Some(CreatedMsg), DeptData(Row(s.nextId, d)))
      && r.store.depts == s.depts[s.nextId := d]
    ensures Consistent(s) ==> Consistent(r.store)
    ensures Consistent(s) && r.outcome.Sent? ==> s.nextId !in s.depts && |r.store.depts| == |s.depts| + 1
  {
    if body.code.None? then Step(s, Passed(PlainError(UndefinedCodeMsg)))
    else if CodeTaken(s.depts, body.code.value) then Step(s, Passed(ErrorResponse(CodeTakenMsg, 400)))
    else if body.name.None? || body.facultyName.None? then Step(s, Passed(NotNullError(body)))
    else if !DeptFits(Given(body)) then Step(s, Passed(TooLongError))
    else
      var d := CutDept(Given(body));
      if CodeTaken(s.depts, d.code) then Step(s, Passed(DuplicateCodeError))
      else
        Step(s.(depts := s.depts[s.nextId := d], nextId := s.nextId + 1),
             Sent(201, Some(CreatedMsg), DeptData(Row(s.nextId, d))))
  }

  // ----- updateDepartment -----

  /** A written value the column cannot hold. */
  predicate Overlong(supplied: Option<string>, current: string) {
    Written(supplied, current) && !Fits(supplied.value)
  }

  predicate UpdateOverlong(cur: Dept, body: Body) {
    Overlong(body.name, cur.name) || Overlong(body.code, cur.code) || Overlong(body.facultyName, cur.facultyName)
  }

  /** The new code, as its column stores it, already belongs to another
      department: a value the code check let through can still collide once
      its trailing spaces are dropped. */
  predicate CodeClash(depts: map<int, Dept>, id: int, body: Body)
    requires id in depts
  {
    Written(body.code, depts[id].code)
    && exists k | k in depts && k != id :: depts[k].code == Cut(body.code.value)
  }

  /** The code check of `updateDepartment`: a new truthy code that some
      department already has. */
  predicate CodeConflict(depts: map<int, Dept>, id: int, body: Body)
    requires id in depts
  {
    TruthyText(body.code) && body.code.value != depts[id].code && CodeTaken(depts, body.code.value)
  }

  /** `updateDepartment`: 404 for an unknown id; 400 when a new code belongs
      to another department; otherwise each field is replaced only by a
      truthy supplied value, as its column stores it, and nothing else
      changes, unless the database refuses a value it cannot hold or a
      stored code that another department has. */
  function UpdateDepartment(s: Store, id: int, body: Body): (r: Step)
    ensures r.store.students == s.students && r.store.faculty == s.faculty && r.store.nextId == s.nextId
    ensures r.outcome.Passed? ==> r.store == s
    ensures id !in s.depts <==> r.outcome == Passed(ErrorResponse(NotFoundMsg, 404))
    ensures id in s.depts ==>
      (r.outcome == Passed(ErrorResponse(CodeConflictMsg, 400)) <==> CodeConflict(s.depts, id, body))
    ensures id in s.depts && !CodeConflict(s.depts, id, body) ==>
      (r.outcome == Passed(TooLongError) <==> UpdateOverlong(s.depts[id], body))
    ensures id in s.depts && !CodeConflict(s.depts, id, body) && !UpdateOverlong(s.depts[id], body) ==>
      (r.outcome == Passed(DuplicateCodeError) <==> CodeClash(s.depts, id, body))
    ensures r.outcome.Sent? <==>
      && id in s.depts
      && !CodeConflict(s.depts, id, body)
      && !UpdateOverlong(s.depts[id], body)
      && !CodeClash(s.depts, id, body)
    ensures r.outcome.Sent? ==>
      && r.store.depts.Keys == s.depts.Keys
      && (forall k | k in s.depts && k != id :: r.store.depts[k] == s.depts[k])
      && r.store.depts[id].name ==
           (if Written(body.name, s.depts[id].name) then Cut(body.name.value) else s.depts[id].name)
      && r.store.depts[id].code ==
           (if Written(body.code, s.depts[id].code) then Cut(body.code.value) else s.depts[id].code)
      && r.store.depts[id].facultyName ==
           (if Written(body.facultyName, s.depts[id].facultyName) then Cut(body.facultyName.value)
            else s.depts[id].facultyName)
      && r.outcome == Sent(200, Some(UpdatedMsg), DeptData(Row(id, r.store.depts[id])))
    ensures Consistent(s) ==> Consistent(r.store)
  {
    if id !in s.depts then Step(s, Passed(ErrorResponse(NotFoundMsg, 404)))
    else
      var cur := s.depts[id];
      if CodeConflict(s.depts, id, body) then Step(s, Passed(ErrorResponse(CodeConflictMsg, 400)))
      else if UpdateOverlong(cur, body) then Step(s, Passed(TooLongError))
      else if CodeClash(s.depts, id, body) then Step(s, Passed(DuplicateCodeError))
      else
        var d := Dept(Merge(body.name, cur.name), Merge(body.code, cur.code), Merge(body.facultyName, cur.facultyName));
        Step(s.(depts := s.depts[id := d]), Sent(200, Some(UpdatedMsg), DeptData(Row(id, d))))
  }

  /** A value too wide for its column is answered 500 with the database's
      own message: no rule of the error middleware classifies it. */
  lemma TooLongIs500()
    ensures ErrorHandler(TooLongError) == Response(false, 500, TooLongMsg)
  {
    assert InvalidFormatMarker[0] == 'G';
    assert 'G' !in "value too long for type ";
    assert 'G' !in "character varying(255)";
    MissingCharNotContained(TooLongMsg, InvalidFormatMarker, 0);
    assert NoRuleFires(TooLongError);
  }

  /** A stored code that collides on the unique index is answered with the
      fixed 400 duplicate message. */
  lemma DuplicateCodeIs400()
    ensures ErrorHandler(DuplicateCodeError) == Response(false, 400, DuplicateMsg)
  {
    UniqueConstraintFixed(DuplicateCodeError);
  }

  // ----- deleteDepartment -----

  /** `deleteDepartment`: 404 for an unknown id; 400 while any student or
      faculty row references it; otherwise exactly that department goes. */
  function DeleteDepartment(s: Store, id: int): (r: Step)
    ensures r.store.students == s.students && r.store.faculty == s.faculty && r.store.nextId == s.nextId
    ensures r.outcome.Passed? ==> r.store == s
    ensures id !in s.depts <==> r.outcome == Passed(ErrorResponse(NotFoundMsg, 404))
    ensures id in s.depts && (RefersTo(s.students, id) || RefersTo(s.faculty, id)) <==>
      r.outcome == Passed(ErrorResponse(InUseMsg, 400))
    ensures r.outcome.Sent? ==>
      && r.outcome == Sent(200, Some(DeletedMsg), NoData)
      && r.store.depts.Keys == s.depts.Keys - {id}
      && (forall k | k in r.store.depts :: r.store.depts[k] == s.depts[k])
    ensures Consistent(s) ==> Consistent(r.store)
  {
    NoneReferencing(s.students, id);
    NoneReferencing(s.faculty, id);
    if id !in s.depts then Step(s, Passed(ErrorResponse(NotFoundMsg, 404)))
    else if |Referencing(s.students, id)| > 0 || |Referencing(s.faculty, id)| > 0 then
      Step(s, Passed(ErrorResponse(InUseMsg, 400)))
    else
      Step(s.(depts := s.depts - {id}), Sent(200, Some(DeletedMsg), NoData))
  }

  // ----- getDepartmentStats -----

  /** `getDepartmentStats`: how many students and faculty rows reference the
      department, or 404. */
  function GetDepartmentStats(s: Store, id: int): (o: Outcome)
    ensures id !in s.depts <==> o == Passed(ErrorResponse(NotFoundMsg, 404))
    ensures id in s.depts ==> o.Sent?
    ensures o.Sent? ==>
      && o.status == 200 && o.data.DeptStats? && o.data.row == Row(id, s.depts[id])
      && o.data.totalStudents == |Referencing(s.students, id)|
      && o.data.totalFaculty == |Referencing(s.faculty, id)|
      && (o.data.totalStudents > 0 <==> RefersTo(s.students, id))
      && (o.data.totalFaculty > 0 <==> RefersTo(s.faculty, id))
  {
    NoneReferencing(s.students, id);
    NoneReferencing(s.faculty, id);
    if id !in s.depts then Passed(ErrorResponse(NotFoundMsg, 404))
    else Sent(200, None, DeptStats(Row(id, s.depts[id]), |Referencing(s.students, id)|, |Referencing(s.faculty, id)|))
  }

  /** A department can be deleted exactly when its statistics are both zero. */
  lemma DeletableIffStatsZero(s: Store, id: int)
    requires id in s.depts
    ensures DeleteDepartment(s, id).outcome.Sent? <==>
      GetDepartmentStats(s, id).data.totalStudents == 0 && GetDepartmentStats(s, id).data.totalFaculty == 0
  {
  }

  /** Every error these handlers raise themselves keeps its status and
      message through the error middleware. */
  lemma HandlerErrorsPassThrough(msg: string, status: int)
    requires msg in {NotFoundMsg, CodeTakenMsg, CodeConflictMsg, InUseMsg}
    requires status in {400, 404}
    ensures ErrorHandler(ErrorResponse(msg, status)) == Response(false, status, msg)
  {
    assert InvalidFormatMarker[2] == 'ç';
    assert 'ç' !in NotFoundMsg;
    assert 'ç' !in CodeTakenMsg;
    assert 'ç' !in CodeConflictMsg;
    assert 'ç' !in InUseMsg;
    MissingCharNotContained(msg, InvalidFormatMarker, 2);
    assert NoRuleFires(ErrorResponse(msg, status));
  }
}

=== FILE: department_routes.dfy ===
/** The department router: which handler serves which verb and path, and
    which guards run before it. The two read-only listings are public; every
    other route runs `protect`, then `authorize('admin')`, then its handler.
    `Serve` composes the router with the guards, the handlers and the error
    middleware into one request/response step over the store. */
module DepartmentRoutes {
  import opened Wrappers
  import opened Strings
  import opened ErrorMiddleware
  import Auth = AuthMiddleware
  import DC = DepartmentController

  /** The request methods the router distinguishes. A HEAD request is
      served by a GET route, since no route is registered for HEAD. */
  datatype Verb = Get | Head | Post | Put | Delete

  /** A path pattern segment: fixed text, or a `:id` parameter. */
  datatype Segment = Lit(text: string) | Param

  datatype Handler = GetAll | GetById | Create | Update | Remove | Stats

  /** The middleware that may run before a handler. */
  datatype Guard = Protect | Authorize(roles: seq<string>)

  datatype Route = Route(verb: Verb, pattern: seq<Segment>, guards: seq<Guard>, handler: Handler)

  const AdminOnly: seq<Guard> := [Protect, Authorize(["admin"])]

  /** The route table, in registration order. Paths are relative to the
      router's mount point and split at "/"; the root is the empty path. */
  const Routes: seq<Route> := [
    Route(Get, [], [], GetAll),
    Route(Get, [Param], [], GetById),
    Route(Post, [], AdminOnly, Create),
    Route(Put, [Param], AdminOnly, Update),
    Route(Delete, [Param], AdminOnly, Remove),
    Route(Get, [Param, Lit("stats")], AdminOnly, Stats)
  ]

  // ----- matching -----

  /** A parameter matches any non-empty segment, a literal only itself. */
  predicate SegmentMatches(p: Segment, seg: string) {
    match p
    case Lit(text) => seg == text
    case Param => seg != ""
  }

  /** Whether a route registered for `routeVerb` handles a `verb` request. */
  predicate Handles(routeVerb: Verb, verb: Verb) {
    routeVerb == verb || (verb == Head && routeVerb == Get)
  }

  predicate Matches(r: Route, verb: Verb, path: seq<string>) {
    && Handles(r.verb, verb)
    && |r.pattern| == |path|
    && forall i | 0 <= i < |path| :: SegmentMatches(r.pattern[i], path[i])
  }

  function ParamCount(pattern: seq<Segment>): nat
    decreases |pattern|
  {
    if |pattern| == 0 then 0
    else (if pattern[0].Param? then 1 else 0) + ParamCount(pattern[1..])
  }

  /** The path segments that stand where the pattern has parameters. */
  function Params(pattern: seq<Segment>, path: seq<string>): (ps: seq<string>)
    requires |pattern| == |path|
    ensures |ps| == ParamCount(pattern)
    ensures forall k | 0 <= k < |ps| :: ps[k] in path
    decreases |pattern|
  {
    if |pattern| == 0 then []
    else (if pattern[0].Param? then [path[0]] else []) + Params(pattern[1..], path[1..])
  }

  /** The first route registered for `verb` whose pattern matches `path`. */
  function FindRoute(verb: Verb, path: seq<string>): (r: Option<nat>)
    ensures r.Some? ==> r.value < |Routes| && Matches(Routes[r.value], verb, path)
    ensures r.Some? ==> forall j | 0 <= j < r.value :: !Matches(Routes[j], verb, path)
    ensures r.None? <==> forall j | 0 <= j < |Routes| :: !Matches(Routes[j], verb, path)
  {
    FindFrom(verb, path, 0)
  }

  function FindFrom(verb: Verb, path: seq<string>, i: nat): (r: Option<nat>)
    requires i <= |Routes|
    ensures r.Some? ==> i <= r.value < |Routes| && Matches(Routes[r.value], verb, path)
    ensures r.Some? ==> forall j | i <= j < r.value :: !Matches(Routes[j], verb, path)
    ensures r.None? <==> forall j | i <= j < |Routes| :: !Matches(Routes[j], verb, path)
    decreases |Routes| - i
  {
    if i == |Routes| then None
    else if Matches(Routes[i], verb, path) then Some(i)
    else FindFrom(verb, path, i + 1)
  }

  /** The routing decision read off the table: the root, one segment, or
      one segment followed by "stats"; nothing else is routed here. */
  function ExpectedRoute(verb: Verb, path: seq<string>): Option<nat> {
    if |path| == 0 then
      (if verb in {Get, Head} then Some(0) else if verb == Post then Some(2) else None)
    else if path[0] == "" then None
    else if |path| == 1 then
      (match verb
       case Get => Some(1)
       case Head => Some(1)
       case Put => Some(3)
       case Delete => Some(4)
       case Post => None)
    else if |path| == 2 && verb in {Get, Head} && path[1] == "stats" then Some(5)
    else None
  }

  lemma RootRoute(verb: Verb, path: seq<string>)
    requires |path| == 0
    ensures FindRoute(verb, path) == ExpectedRoute(verb, path)
  {
  }

  lemma OneSegmentRoute(verb: Verb, path: seq<string>)
    requires |path| == 1
    ensures FindRoute(verb, path) == ExpectedRoute(verb, path)
  {
    if path[0] == "" {
      assert !SegmentMatches(Param, path[0]);
    } else {
      assert SegmentMatches(Param, path[0]);
      assert !Matches(Routes[0], verb, path) && !Matches(Routes[2], verb, path) && !Matches(Routes[5], verb, path);
      assert Matches(Routes[1], verb, path) <==> verb in {Get, Head};
      assert Matches(Routes[3], verb, path) <==> verb == Put;
      assert Matches(Routes[4], verb, path) <==> verb == Delete;
    }
  }

  lemma TwoSegmentRoute(verb: Verb, path: seq<string>)
    requires |path| == 2
    ensures FindRoute(verb, path) == ExpectedRoute(verb, path)
  {
    assert forall j | 0 <= j < 5 :: !Matches(Routes[j], verb, path);
    if path[0] == "" {
      assert !SegmentMatches(Param, path[0]);
    } else if path[1] != "stats" {
      assert !SegmentMatches(Lit("stats"), path[1]);
    } else {
      assert Matches(Routes[5], verb, path) <==> verb in {Get, Head};
    }
  }

  lemma LongerPathRoute(verb: Verb, path: seq<string>)
    requires |path| > 2
    ensures FindRoute(verb, path) == None
  {
    assert forall j | 0 <= j < |Routes| :: |Routes[j].pattern| <= 2;
  }

  /** The router picks exactly the route the table promises for each verb
      and path. */
  lemma RoutingTable(verb: Verb, path: seq<string>)
    ensures FindRoute(verb, path) == ExpectedRoute(verb, path)
  {
    if |path| == 0 {
      RootRoute(verb, path);
    } else if |path| == 1 {
      OneSegmentRoute(verb, path);
    } else if |path| == 2 {
      TwoSegmentRoute(verb, path);
    } else {
      LongerPathRoute(verb, path);
    }
  }

  /** A single segment is always an id, even "stats"; the statistics need the
      two-segment path. */
  lemma StatsIsAnIdOnItsOwn()
    ensures FindRoute(Get, ["stats"]) == Some(1)
    ensures FindRoute(Get, ["7", "stats"]) == Some(5)
  {
    OneSegmentRoute(Get, ["stats"]);
    TwoSegmentRoute(Get, ["7", "stats"]);
  }

  /** A HEAD request goes wherever the GET request for the same path goes,
      through the same guards to the same handler. */
  lemma HeadServedAsGet(path: seq<string>, req: Auth.Request,
                        verify: string -> Auth.Verification, findUser: int -> Auth.Lookup)
    ensures FindRoute(Head, path) == FindRoute(Get, path)
    ensures Dispatch(Head, path, req, verify, findUser) == Dispatch(Get, path, req, verify, findUser)
  {
    RoutingTable(Head, path);
    RoutingTable(Get, path);
  }

  // ----- guards -----

  /** `authorize` reads `req.user`, so it may run only where `protect` has
      run before it or the user is already known. */
  predicate GuardsWellOrdered(guards: seq<Guard>, hasUser: bool)
    decreases |guards|
  {
    |guards| == 0 ||
    match guards[0]
    case Protect => GuardsWellOrdered(guards[1..], true)
    case Authorize(_) => hasUser && GuardsWellOrdered(guards[1..], hasUser)
  }

  /** Every route puts `protect` before `authorize`, so `authorize` never
      sees a request without a user, even a fresh one. */
  lemma RouteTableWellOrdered()
    ensures forall i | 0 <= i < |Routes| :: GuardsWellOrdered(Routes[i].guards, false)
  {
    assert GuardsWellOrdered(AdminOnly[1..], true);
  }

  /** Exactly the two listings are public; every other handler sits behind
      `protect` and `authorize('admin')`. */
  lemma PublicAndAdminRoutes()
    ensures forall i | 0 <= i < |Routes| ::
      (Routes[i].guards == [] <==> Routes[i].handler in {GetAll, GetById})
    ensures forall i | 0 <= i < |Routes| ::
      Routes[i].handler !in {GetAll, GetById} ==> Routes[i].guards == AdminOnly
    ensures forall i | 0 <= i < |Routes| ::
      Routes[i].verb != Get ==> Routes[i].guards == AdminOnly
  {
  }

  /** The guards in order; the first rejection answers the request. */
  function RunGuards(guards: seq<Guard>, req: Auth.Request,
                     verify: string -> Auth.Verification, findUser: int -> Auth.Lookup): (r: Auth.Outcome)
    requires GuardsWellOrdered(guards, req.user.Some?)
    ensures r.Reject? ==> r.status == 401 || r.status == 403
    ensures r.Next? ==> r.req.authorization == req.authorization
    ensures r.Next? && (req.user.Some? || Protect in guards) ==> r.req.user.Some?
    ensures guards == [] ==> r == Auth.Next(req)
    decreases |guards|
  {
    if |guards| == 0 then Auth.Next(req)
    else
      var rest := guards[1..];
      assert forall g | g in rest :: g in guards;
      match guards[0]
      case Protect =>
        (match Auth.Protect(req, verify, findUser)
         case Next(req') => RunGuards(rest, req', verify, findUser)
         case Reject(status, message) => Auth.Reject(status, message))
      case Authorize(roles) =>
        (match Auth.Authorize(roles, req)
         case Next(req') => RunGuards(rest, req', verify, findUser)
         case Reject(status, message) => Auth.Reject(status, message))
  }

  /** A valid bearer token of an existing user whose role is admin. */
  predicate AdminAuthenticated(req: Auth.Request, verify: string -> Auth.Verification, findUser: int -> Auth.Lookup) {
    var t := Auth.ExtractToken(req.authorization);
    && t.Some?
    && verify(t.value).Decoded?
    && findUser(verify(t.value).id).Found?
    && findUser(verify(t.value).id).user.role == "admin"
  }

  /** `protect, authorize('admin')` end to end: through iff the request is
      an admin's, with `req.user` then that admin; 401 without a token or
      with a token that fails verification; 403 for students and faculty. */
  lemma AdminOnlyAccess(req: Auth.Request, verify: string -> Auth.Verification, findUser: int -> Auth.Lookup)
    ensures var r := RunGuards(AdminOnly, req, verify, findUser);
      && (r.Next? <==> AdminAuthenticated(req, verify, findUser))
      && (r.Next? ==>
            var t := Auth.ExtractToken(req.authorization).value;
            r.req == req.(user := Some(findUser(verify(t).id).user)))
      && (Auth.ExtractToken(req.authorization).None? ==> r == Auth.Reject(401, Auth.NoTokenMsg))
      && (Auth.ExtractToken(req.authorization).Some? &&
          verify(Auth.ExtractToken(req.authorization).value).VerifyFailed? ==>
            r == Auth.Reject(401, Auth.BadTokenMsg))
  {
    assert Join(["admin"], ", ") == "admin";
  }

  /** A student or faculty member with a valid token is refused with 403. */
  lemma NonAdminsForbidden(req: Auth.Request, verify: string -> Auth.Verification, findUser: int -> Auth.Lookup)
    requires Auth.ExtractToken(req.authorization).Some?
    requires verify(Auth.ExtractToken(req.authorization).value).Decoded?
    requires findUser(verify(Auth.ExtractToken(req.authorization).value).id).Found?
    requires findUser(verify(Auth.ExtractToken(req.authorization).value).id).user.role in {"student", "faculty"}
    ensures RunGuards(AdminOnly, req, verify, findUser) == Auth.Reject(403, Auth.ForbiddenPrefix + "admin")
  {
    assert Join(["admin"], ", ") == "admin";
  }

  // ----- dispatch -----

  datatype Dispatched =
    | Reached(route: Route, params: seq<string>, req: Auth.Request)
    | Refused(status: int, message: string)
    | Unrouted

  /** Find the route, run its guards, and say whether its handler is reached. */
  function Dispatch(verb: Verb, path: seq<string>, req: Auth.Request,
                    verify: string -> Auth.Verification, findUser: int -> Auth.Lookup): (d: Dispatched)
    ensures d.Unrouted? <==> FindRoute(verb, path).None?
    ensures d.Reached? ==>
      && FindRoute(verb, path).Some? && d.route == Routes[FindRoute(verb, path).value]
      && d.params == Params(d.route.pattern, path)
    ensures d.Refused? ==> d.status == 401 || d.status == 403
    ensures FindRoute(verb, path).Some? && Routes[FindRoute(verb, path).value].guards == [] ==>
      d.Reached? && d.req == req
    ensures FindRoute(verb, path).Some? && Routes[FindRoute(verb, path).value].guards == AdminOnly ==>
      (d.Reached? <==> AdminAuthenticated(req, verify, findUser))
  {
    match FindRoute(verb, path)
    case None => Unrouted
    case Some(i) =>
      var route := Routes[i];
      RouteTableWellOrdered();
      AdminOnlyAccess(req, verify, findUser);
      match RunGuards(route.guards, req, verify, findUser)
      case Next(req') => Reached(route, Params(route.pattern, path), req')
      case Reject(status, message) => Refused(status, message)
  }

  // ----- route parameters -----

  predicate IsDigit(c: char) {
    '0' <= c <= '9'
  }

  predicate AllDigits(s: string) {
    forall i | 0 <= i < |s| :: IsDigit(s[i])
  }

  /** The decimal value of a digit string. */
  function DigitsValue(s: string): nat
    requires AllDigits(s)
    decreases |s|
  {
    if |s| == 0 then 0
    else DigitsValue(s[..|s| - 1]) * 10 + (s[|s| - 1] - '0') as nat
  }

  /** The decimal text of a number, without leading zeros. */
  function DecimalText(n: nat): (s: string)
    ensures |s| > 0 && AllDigits(s)
    decreases n
  {
    var last := ['0' + (n % 10) as char];
    if n < 10 then last else DecimalText(n / 10) + last
  }

  /** How the database reads `:id` as an integer key: a non-empty digit
      string is a number, anything else is not. */
  function ParseId(text: string): (r: Option<int>)
    ensures r.Some? <==> text != "" && AllDigits(text)
    ensures r.Some? ==> r.value >= 0
  {
    if text != "" && AllDigits(text) then Some(DigitsValue(text)) else None
  }

  lemma {:induction false} DigitsOfDecimal(n: nat)
    ensures DigitsValue(DecimalText(n)) == n
    decreases n
  {
    var s := DecimalText(n);
    if n >= 10 {
      DigitsOfDecimal(n / 10);
      assert s[..|s| - 1] == DecimalText(n / 10);
    }
  }

  /** Every id printed in decimal reads back as itself. */
  lemma ParseDecimalId(n: nat)
    ensures ParseId(DecimalText(n)) == Some(n)
  {
    DigitsOfDecimal(n);
  }

  /** What the database raises when a key is not an integer: invalid text
      representation, SQLSTATE 22P02. */
  function InvalidKeyError(text: string): ErrorRecord {
    ErrorRecord("SequelizeDatabaseError", "invalid input syntax for type integer: \"" + text + "\"",
                None, Some("22P02"), None, [])
  }

  /** A non-numeric id is answered with 400 and the invalid-id message,
      whatever text it holds. */
  lemma InvalidKeyIs400(text: string)
    ensures ErrorHandler(InvalidKeyError(text)) == Response(false, 400, InvalidIdMsg)
  {
    LastMatchWins(Rules(InvalidKeyError(text)), 2);
  }

  // ----- serving a request -----

  /** The key of the text in a JSON reply: the handlers and the guards
      write `message`, the error middleware writes `error`. */
  datatype TextKey = MessageKey | ErrorKey

  /** What the client gets: a JSON reply `{ success, <key>: text }`, or
      nothing from this router. A reply without text has no such key. */
  datatype Reply = Answer(status: int, success: bool, key: TextKey, text: Option<string>) | PassedOn

  datatype Served = Served(store: DC.Store, reply: Reply)

  /** The reply for a handler's outcome; errors go through the error middleware. */
  function Finish(step: DC.Step): (r: Served)
    ensures r.store == step.store
    ensures r.reply.Answer?
    ensures step.outcome.Sent? ==> r.reply == Answer(step.outcome.status, true, MessageKey, step.outcome.message)
    ensures step.outcome.Passed? ==>
      && !r.reply.success && r.reply.key == ErrorKey
      && r.reply.status == ErrorHandler(step.outcome.err).status
      && r.reply.text == Some(ErrorHandler(step.outcome.err).message)
  {
    match step.outcome
    case Sent(status, message, _) => Served(step.store, Answer(status, true, MessageKey, message))
    case Passed(err) =>
      var resp := ErrorHandler(err);
      Served(step.store, Answer(resp.status, false, ErrorKey, Some(resp.message)))
  }

  /** A handler invoked with the id text of its path; an id the database
      cannot read as an integer fails the first query with 22P02. */
  function RunWithId(s: DC.Store, idText: string, run: int -> DC.Step): (r: DC.Step)
    ensures ParseId(idText).None? ==> r == DC.Step(s, DC.Passed(InvalidKeyError(idText)))
    ensures ParseId(idText).Some? ==> r == run(ParseId(idText).value)
  {
    match ParseId(idText)
    case None => DC.Step(s, DC.Passed(InvalidKeyError(idText)))
    case Some(id) => run(id)
  }

  /** The handler of a reached route, run on the store. */
  method RunHandler(s: DC.Store, h: Handler, params: seq<string>, body: DC.Body) returns (r: DC.Step)
    requires h !in {GetAll, Create} ==> |params| >= 1
    ensures h in {GetAll, GetById, Stats} ==> r.store == s
    ensures h == GetAll ==>
      && r.outcome.Sent? && r.outcome.status == 200 && r.outcome.data.DeptList?
      && r.outcome.data.count == |r.outcome.data.rows| == |s.depts|
      && DC.SortedRows(r.outcome.data.rows)
      && DC.RowsFaithful(s.depts, r.outcome.data.rows) && DC.RowsComplete(s.depts, r.outcome.data.rows)
    ensures h == GetById ==> r == RunWithId(s, params[0], id => DC.Step(s, DC.GetDepartmentById(s, id)))
    ensures h == Stats ==> r == RunWithId(s, params[0], id => DC.Step(s, DC.GetDepartmentStats(s, id)))
    ensures h == Create ==> r == DC.CreateDepartment(s, body)
    ensures h == Update ==> r == RunWithId(s, params[0], id => DC.UpdateDepartment(s, id, body))
    ensures h == Remove ==> r == RunWithId(s, params[0], id => DC.DeleteDepartment(s, id))
    ensures r.outcome.Passed? ==> r.store == s
    ensures DC.Consistent(s) ==> DC.Consistent(r.store)
  {
    match h
    case GetAll =>
      var o := DC.GetAllDepartments(s);
      r := DC.Step(s, o);
    case GetById =>
      r := RunWithId(s, params[0], id => DC.Step(s, DC.GetDepartmentById(s, id)));
    case Create =>
      r := DC.CreateDepartment(s, body);
    case Update =>
      r := RunWithId(s, params[0], id => DC.UpdateDepartment(s, id, body));
    case Remove =>
      r := RunWithId(s, params[0], id => DC.DeleteDepartment(s, id));
    case Stats =>
      r := RunWithId(s, params[0], id => DC.Step(s, DC.GetDepartmentStats(s, id)));
  }

  /** One request end to end: route, guards, handler, error middleware.
      Only an authenticated admin can change the store, a refused or failed
      request leaves it as it was, and the store's invariant is kept. */
  method Serve(s: DC.Store, verb: Verb, path: seq<string>, req: Auth.Request, body: DC.Body,
               verify: string -> Auth.Verification, findUser: int -> Auth.Lookup) returns (r: Served)
    ensures r.reply.PassedOn? <==> FindRoute(verb, path).None?
    ensures r.store != s ==> AdminAuthenticated(req, verify, findUser)
    ensures r.reply.Answer? && !r.reply.success ==> r.store == s
    ensures DC.Consistent(s) ==> DC.Consistent(r.store)
    ensures Dispatch(verb, path, req, verify, findUser).Refused? ==>
      var d := Dispatch(verb, path, req, verify, findUser);
      r.reply == Answer(d.status, false, MessageKey, Some(d.message))
    ensures Dispatch(verb, path, req, verify, findUser).Reached? ==>
      r.reply.Answer? && (r.reply.key == ErrorKey <==> !r.reply.success)
    ensures r.reply.Answer? && r.reply.key == MessageKey && !r.reply.success ==>
      r.reply.status == 401 || r.reply.status == 403
  {
    match Dispatch(verb, path, req, verify, findUser)
    case Unrouted =>
      r := Served(s, PassedOn);
    case Refused(status, message) =>
      r := Served(s, Answer(status, false, MessageKey, Some(message)));
    case Reached(route, params, _) =>
      TableParams(verb, path);
      r := Respond(s, route.handler, params, body);
  }

  /** A reached handler's reply: only the writing handlers change the
      store, only on success, and the reply's key tells success from
      failure. */
  method Respond(s: DC.Store, h: Handler, params: seq<string>, body: DC.Body) returns (r: Served)
    requires h !in {GetAll, Create} ==> |params| >= 1
    ensures r.reply.Answer? && (r.reply.key == ErrorKey <==> !r.reply.success)
    ensures h in {GetAll, GetById, Stats} ==> r.store == s
    ensures !r.reply.success ==> r.store == s
    ensures DC.Consistent(s) ==> DC.Consistent(r.store)
  {
    var step := RunHandler(s, h, params, body);
    r := Finish(step);
  }

  /** The id handlers are reached with their id segment. */
  lemma TableParams(verb: Verb, path: seq<string>)
    requires FindRoute(verb, path).Some?
    ensures var route := Routes[FindRoute(verb, path).value];
      route.handler !in {GetAll, Create} ==> |Params(route.pattern, path)| >= 1
  {
  }
}

=== FILE: error_middleware.dfy ===
/** The central Express error handler (`errorHandler`). It copies the thrown
    error, runs seven independent `if` rules that may each replace the copy
    by an `ErrorResponse(message, status)`, and answers with
    `error.statusCode || 500` and `error.message || 'Sunucu Hatası'`.
    Every rule tests the ORIGINAL error, never the replaced copy, so the
    chain amounts to "the last rule that matches decides". */
module ErrorMiddleware {
  import opened Wrappers
  import opened Strings

  /** The parts of a thrown error the handler reads. An absent `message`
      is "" (both are falsy, and neither contains a non-empty text).
      `parentCode` is `err.parent.code`, None when either is missing.
      `statusCode` is an own enumerable property, so the spread copy keeps
      it. `items` are the messages of `err.errors`, in order. */
  datatype ErrorRecord = ErrorRecord(
    name: string,
    message: string,
    code: Option<string>,
    parentCode: Option<string>,
    statusCode: Option<int>,
    items: seq<string>)

  /** `new Error(message)`. */
  function PlainError(message: string): ErrorRecord {
    ErrorRecord("Error", message, None, None, None, [])
  }

  /** `new ErrorResponse(message, status)`: an Error carrying `statusCode`. */
  function ErrorResponse(message: string, status: int): ErrorRecord {
    ErrorRecord("Error", message, None, None, Some(status), [])
  }

  /** A replacement `error = new ErrorResponse(message, status)` made by a rule. */
  datatype Override = Override(status: int, message: string)

  /** The JSON error reply `{ success, error }` with its HTTP status. */
  datatype Response = Response(success: bool, status: int, message: string)

  const MulterDefaultMsg := "Dosya yükleme hatası"
  const FileSizeMsg := "Dosya boyutu çok büyük. Maksimum 5MB yüklenebilir."
  const FileCountMsg := "Çok fazla dosya gönderildi."
  const UnexpectedFileMsg := "Beklenmeyen dosya alanı. Lütfen \"profile_image\" alanını kullanın."
  const InvalidFormatMarker := "Geçersiz dosya formatı"
  const InvalidIdMsg := "Geçersiz ID formatı"
  const DuplicateMsg := "Bu veri zaten sistemde kayıtlı."
  const InvalidTokenMsg := "Geçersiz token. Lütfen tekrar giriş yapın."
  const ExpiredTokenMsg := "Token süresi dolmuş. Lütfen tekrar giriş yapın."
  const ServerErrorMsg := "Sunucu Hatası"
  const DefaultStatus := 500

  /** JavaScript truthiness of an optional status code. */
  predicate Truthy(status: Option<int>) {
    status.Some? && status.value != 0
  }

  function MulterMessage(code: Option<string>): string {
    if code == Some("LIMIT_FILE_SIZE") then FileSizeMsg
    else if code == Some("LIMIT_FILE_COUNT") then FileCountMsg
    else if code == Some("LIMIT_UNEXPECTED_FILE") then UnexpectedFileMsg
    else MulterDefaultMsg
  }

  // The seven rules, in source order.

  function MulterRule(e: ErrorRecord): Option<Override> {
    if e.name == "MulterError" then Some(Override(400, MulterMessage(e.code))) else None
  }

  function FileFilterRule(e: ErrorRecord): Option<Override> {
    if e.message != "" && Contains(e.message, InvalidFormatMarker)
    then Some(Override(400, e.message)) else None
  }

  function InvalidIdRule(e: ErrorRecord): Option<Override> {
    if e.name == "SequelizeDatabaseError" && e.parentCode == Some("22P02")
    then Some(Override(400, InvalidIdMsg)) else None
  }

  function UniqueRule(e: ErrorRecord): Option<Override> {
    if e.name == "SequelizeUniqueConstraintError" then Some(Override(400, DuplicateMsg)) else None
  }

  function ValidationRule(e: ErrorRecord): Option<Override> {
    if e.name == "SequelizeValidationError" then Some(Override(400, Join(e.items, ", "))) else None
  }

  function JwtInvalidRule(e: ErrorRecord): Option<Override> {
    if e.name == "JsonWebTokenError" then Some(Override(401, InvalidTokenMsg)) else None
  }

  function JwtExpiredRule(e: ErrorRecord): Option<Override> {
    if e.name == "TokenExpiredError" then Some(Override(401, ExpiredTokenMsg)) else None
  }

  /** What each rule would set `error` to, in the order the rules run. */
  function Rules(e: ErrorRecord): seq<Option<Override>> {
    [MulterRule(e), FileFilterRule(e), InvalidIdRule(e), UniqueRule(e),
     ValidationRule(e), JwtInvalidRule(e), JwtExpiredRule(e)]
  }

  /** The replacement left standing after a chain of independent `if`s:
      the last one that fired, or None when none fired. */
  function LastOverride(rs: seq<Option<Override>>): (r: Option<Override>)
    ensures r.None? <==> forall i | 0 <= i < |rs| :: rs[i].None?
    ensures r.Some? ==> r in rs
    decreases |rs|
  {
    if |rs| == 0 then None
    else if rs[|rs| - 1].Some? then rs[|rs| - 1]
    else
      var front := rs[..|rs| - 1];
      assert forall i | 0 <= i < |front| :: front[i] == rs[i];
      assert forall o | o in front :: o in rs;
      LastOverride(front)
  }

  /** A rule that fires with nothing firing after it is the one that stands. */
  lemma {:induction false} LastMatchWins(rs: seq<Option<Override>>, i: int)
    requires 0 <= i < |rs| && rs[i].Some?
    requires forall j | i < j < |rs| :: rs[j].None?
    ensures LastOverride(rs) == rs[i]
    decreases |rs|
  {
    if i < |rs| - 1 {
      var front := rs[..|rs| - 1];
      assert front[i] == rs[i];
      LastMatchWins(front, i);
    }
  }

  predicate NoRuleFires(e: ErrorRecord) {
    forall i | 0 <= i < |Rules(e)| :: Rules(e)[i].None?
  }

  /** `errorHandler(err)`: the status and body it sends. */
  function ErrorHandler(e: ErrorRecord): (r: Response)
    ensures !r.success
    ensures r.message != "" && r.status != 0
    ensures NoRuleFires(e) ==>
      r.status == (if Truthy(e.statusCode) then e.statusCode.value else DefaultStatus)
      && r.message == (if e.message != "" then e.message else ServerErrorMsg)
    ensures !NoRuleFires(e) ==> r.status == 400 || r.status == 401
  {
    var (status, message) :=
      match LastOverride(Rules(e))
      case Some(o) => (Some(o.status), o.message)
      case None => (e.statusCode, e.message);
    Response(false,
             if Truthy(status) then status.value else DefaultStatus,
             if message != "" then message else ServerErrorMsg)
  }

  /** At most one name-keyed rule can fire, since an error has one name;
      only the message-keyed file-filter rule can overlap with them. */
  lemma NameRulesExclusive(e: ErrorRecord, i: int, j: int)
    requires i in {0, 2, 3, 4, 5, 6} && j in {0, 2, 3, 4, 5, 6}
    requires Rules(e)[i].Some? && Rules(e)[j].Some?
    ensures i == j
  {
  }

  /** An error that already carries a truthy status and matches no rule keeps
      both its status and its own message (as a 404 `ErrorResponse` does). */
  lemma UnclassifiedKeepsStatusAndMessage(e: ErrorRecord)
    requires NoRuleFires(e) && Truthy(e.statusCode) && e.message != ""
    ensures ErrorHandler(e) == Response(false, e.statusCode.value, e.message)
  {
  }

  /** Every `MulterError` is a 400. When the file-filter rule (which runs
      after) does not match, the three known codes pick their message and any
      other code the generic upload message; when it does match, the error's
      own message is sent. */
  lemma MulterErrors(e: ErrorRecord)
    requires e.name == "MulterError"
    ensures ErrorHandler(e).status == 400
    ensures FileFilterRule(e).None? && e.code == Some("LIMIT_FILE_SIZE") ==> ErrorHandler(e).message == FileSizeMsg
    ensures FileFilterRule(e).None? && e.code == Some("LIMIT_FILE_COUNT") ==> ErrorHandler(e).message == FileCountMsg
    ensures FileFilterRule(e).None? && e.code == Some("LIMIT_UNEXPECTED_FILE") ==>
      ErrorHandler(e).message == UnexpectedFileMsg
    ensures FileFilterRule(e).None?
         && e.code !in {Some("LIMIT_FILE_SIZE"), Some("LIMIT_FILE_COUNT"), Some("LIMIT_UNEXPECTED_FILE")}
         ==> ErrorHandler(e).message == MulterDefaultMsg
    ensures FileFilterRule(e).Some? ==> ErrorHandler(e).message == e.message
  {
    if FileFilterRule(e).Some? {
      LastMatchWins(Rules(e), 1);
    } else {
      LastMatchWins(Rules(e), 0);
    }
  }

  /** A message containing the invalid-format text is answered with 400 and
      that very message, whatever the error's name, as long as no later
      name-keyed rule fires. */
  lemma FileFilterMessagePassesThrough(e: ErrorRecord)
    requires Contains(e.message, InvalidFormatMarker)
    requires forall i | 2 <= i < 7 :: Rules(e)[i].None?
    ensures ErrorHandler(e) == Response(false, 400, e.message)
  {
    LastMatchWins(Rules(e), 1);
  }

  /** A database error whose parent's code is 22P02 is always rewritten to
      the 400 invalid-id reply. Any other database error keeps its own status
      and message, unless its message matches the file-filter rule, which
      makes it a 400 with that message. */
  lemma DatabaseErrorOnlyFor22P02(e: ErrorRecord)
    requires e.name == "SequelizeDatabaseError"
    ensures e.parentCode == Some("22P02") ==> ErrorHandler(e) == Response(false, 400, InvalidIdMsg)
    ensures e.parentCode != Some("22P02") && FileFilterRule(e).None? ==>
      ErrorHandler(e).status == (if Truthy(e.statusCode) then e.statusCode.value else DefaultStatus)
      && ErrorHandler(e).message == (if e.message != "" then e.message else ServerErrorMsg)
    ensures e.parentCode != Some("22P02") && FileFilterRule(e).Some? ==>
      ErrorHandler(e) == Response(false, 400, e.message)
  {
    if e.parentCode == Some("22P02") {
      LastMatchWins(Rules(e), 2);
    } else if FileFilterRule(e).Some? {
      LastMatchWins(Rules(e), 1);
    } else {
      assert NoRuleFires(e);
    }
  }

  /** A unique-constraint error is a 400 with one fixed message, whatever its
      own message, fields or status say. */
  lemma UniqueConstraintFixed(e: ErrorRecord)
    requires e.name == "SequelizeUniqueConstraintError"
    ensures ErrorHandler(e) == Response(false, 400, DuplicateMsg)
  {
    LastMatchWins(Rules(e), 3);
  }

  /** A validation error is a 400 whose message is the item messages joined
      by ", " in order; this wins over the file-filter rule, which runs
      earlier. With no items the joined message is empty and the server-error
      text is sent instead. */
  lemma ValidationErrorJoinsItems(e: ErrorRecord)
    requires e.name == "SequelizeValidationError"
    ensures ErrorHandler(e).status == 400
    ensures Join(e.items, ", ") != "" ==> ErrorHandler(e).message == Join(e.items, ", ")
    ensures Join(e.items, ", ") == "" ==> ErrorHandler(e).message == ServerErrorMsg
    ensures e.items == [] ==> ErrorHandler(e).message == ServerErrorMsg
  {
    LastMatchWins(Rules(e), 4);
  }

  /** Both token errors are 401s with their own fixed message. */
  lemma TokenErrors(e: ErrorRecord)
    requires e.name == "JsonWebTokenError" || e.name == "TokenExpiredError"
    ensures e.name == "JsonWebTokenError" ==> ErrorHandler(e) == Response(false, 401, InvalidTokenMsg)
    ensures e.name == "TokenExpiredError" ==> ErrorHandler(e) == Response(false, 401, ExpiredTokenMsg)
  {
    if e.name == "JsonWebTokenError" {
      LastMatchWins(Rules(e), 5);
    } else {
      LastMatchWins(Rules(e), 6);
    }
  }

  /** Later rules override earlier ones: a validation error whose message
      carries the invalid-format text gets the validation message. */
  lemma ValidationBeatsFileFilter(items: seq<string>, message: string)
    requires Contains(message, InvalidFormatMarker)
    requires Join(items, ", ") != ""
    ensures ErrorHandler(ErrorRecord("SequelizeValidationError", message, None, None, None, items))
         == Response(false, 400, Join(items, ", "))
  {
    var e := ErrorRecord("SequelizeValidationError", message, None, None, None, items);
    assert FileFilterRule(e).Some?;
    LastMatchWins(Rules(e), 4);
  }
}

=== FILE: strings.dfy ===
/** The JavaScript string operations the middleware relies on, over
    `string` = `seq<char>`: `startsWith`, `includes`, `split` on one
    character, `Array.prototype.join`, and a lexicographic order used for
    sorting query results. */
module Strings {

  /** `s.startsWith(prefix)`. */
  predicate StartsWith(s: string, prefix: string) {
    prefix <= s
  }

  /** `sub` occurs in `s` starting at index `i`. */
  predicate OccursAt(s: string, sub: string, i: int) {
    0 <= i && i + |sub| <= |s| && s[i..i + |sub|] == sub
  }

  /** `s.includes(sub)`. */
  predicate Contains(s: string, sub: string) {
    exists i | 0 <= i <= |s| - |sub| :: OccursAt(s, sub, i)
  }

  lemma PrefixIsContained(s: string, sub: string)
    requires StartsWith(s, sub)
    ensures Contains(s, sub)
  {
    assert OccursAt(s, sub, 0);
  }

  /** A character of `sub` that `s` lacks rules out every occurrence. */
  lemma MissingCharNotContained(s: string, sub: string, k: int)
    requires 0 <= k < |sub|
    requires sub[k] !in s
    ensures !Contains(s, sub)
  {
    forall i | 0 <= i <= |s| - |sub|
      ensures !OccursAt(s, sub, i)
    {
      assert i + k < |s|;
      assert s[i + k] != sub[k];
      assert s[i..i + |sub|][k] == s[i + k];
    }
  }

  /** Index of the first `c` in `s`, or `|s|` when there is none. */
  function IndexOf(s: string, c: char): (r: nat)
    ensures r <= |s|
    ensures r < |s| ==> s[r] == c
    ensures c !in s[..r]
    ensures r == |s| <==> c !in s
  {
    if |s| == 0 then 0
    else if s[0] == c then 0
    else
      var k := IndexOf(s[1..], c);
      assert s[1..][..k] == s[1..k + 1];
      assert s[..k + 1] == [s[0]] + s[1..][..k];
      k + 1
  }

  /** A `c` with no `c` before it is the one IndexOf finds. */
  lemma {:induction false} IndexOfFirst(s: string, c: char, k: nat)
    requires k < |s| && s[k] == c && c !in s[..k]
    ensures IndexOf(s, c) == k
    decreases k
  {
    if k > 0 {
      assert s[0] == s[..k][0];
      assert s[1..][..k - 1] == s[1..k];
      assert s[1..k] == s[..k][1..];
      IndexOfFirst(s[1..], c, k - 1);
    }
  }

  /** `s.split(sep)` for a one-character separator: the maximal pieces
      between separators, in order, empty pieces included. */
  function Split(s: string, sep: char): (pieces: seq<string>)
    ensures |pieces| >= 1
    ensures forall i | 0 <= i < |pieces| :: sep !in pieces[i]
    decreases |s|
  {
    if |s| == 0 then [""]
    else
      var rest := Split(s[1..], sep);
      if s[0] == sep then [""] + rest
      else [[s[0]] + rest[0]] + rest[1..]
  }

  /** `parts.join(sep)`; the join of no parts is "". */
  function Join(parts: seq<string>, sep: string): string
    decreases |parts|
  {
    if |parts| == 0 then ""
    else if |parts| == 1 then parts[0]
    else parts[0] + sep + Join(parts[1..], sep)
  }

  /** Joining the pieces of a split with the separator gives the string back. */
  lemma {:induction false} JoinSplit(s: string, sep: char)
    ensures Join(Split(s, sep), [sep]) == s
    decreases |s|
  {
    if |s| > 0 {
      var rest := Split(s[1..], sep);
      JoinSplit(s[1..], sep);
      if s[0] == sep {
        assert Split(s, sep) == [""] + rest;
        assert ([""] + rest)[1..] == rest;
        assert s == [sep] + s[1..];
      } else {
        var ps := Split(s, sep);
        assert ps == [[s[0]] + rest[0]] + rest[1..];
        if |rest| == 1 {
          assert s == [s[0]] + s[1..];
        } else {
          assert ps[1..] == rest[1..];
          assert Join(rest, [sep]) == rest[0] + [sep] + Join(rest[1..], [sep]);
          assert s == [s[0]] + s[1..];
        }
      }
    }
  }

  /** Splitting at the first separator: the text before it is the first
      piece and the rest of the split continues after it. */
  lemma {:induction false} SplitAtFirst(s: string, sep: char)
    ensures IndexOf(s, sep) == |s| ==> Split(s, sep) == [s]
    ensures IndexOf(s, sep) < |s| ==>
      Split(s, sep) == [s[..IndexOf(s, sep)]] + Split(s[IndexOf(s, sep) + 1..], sep)
    decreases |s|
  {
    if |s| > 0 && s[0] != sep {
      SplitAtFirst(s[1..], sep);
      var k := IndexOf(s[1..], sep);
      assert IndexOf(s, sep) == k + 1;
      assert s[1..][..k] == s[1..k + 1];
      assert s[..k + 1] == [s[0]] + s[1..k + 1];
      if k < |s[1..]| {
        assert s[1..][k + 1..] == s[k + 2..];
      } else {
        assert s == [s[0]] + s[1..];
      }
    }
  }

  /** Splitting the join of separator-free parts gives the parts back. */
  lemma {:induction false} SplitJoin(parts: seq<string>, sep: char)
    requires |parts| >= 1
    requires forall i | 0 <= i < |parts| :: sep !in parts[i]
    ensures Split(Join(parts, [sep]), sep) == parts
    decreases |parts|
  {
    var s := Join(parts, [sep]);
    SplitAtFirst(s, sep);
    if |parts| == 1 {
      assert IndexOf(s, sep) == |s|;
    } else {
      var tail := Join(parts[1..], [sep]);
      assert s == parts[0] + [sep] + tail;
      assert s[..|parts[0]|] == parts[0];
      assert s[|parts[0]|] == sep;
      IndexOfFirst(s, sep, |parts[0]|);
      assert s[|parts[0]| + 1..] == tail;
      SplitJoin(parts[1..], sep);
      assert parts == [parts[0]] + parts[1..];
    }
  }

  /** Lexicographic order on character codes. */
  predicate StrLe(a: string, b: string)
    decreases |a|
  {
    |a| == 0 || (|b| > 0 && (a[0] < b[0] || (a[0] == b[0] && StrLe(a[1..], b[1..]))))
  }

  lemma StrLeTotal(a: string, b: string)
    ensures StrLe(a, b) || StrLe(b, a)
  {
  }

  lemma {:induction false} StrLeAntisymmetric(a: string, b: string)
    requires StrLe(a, b) && StrLe(b, a)
    ensures a == b
    decreases |a|
  {
    if |a| > 0 {
      StrLeAntisymmetric(a[1..], b[1..]);
      assert a == [a[0]] + a[1..];
      assert b == [b[0]] + b[1..];
    }
  }

  lemma {:induction false} StrLeTransitive(a: string, b: string, c: string)
    requires StrLe(a, b) && StrLe(b, c)
    ensures StrLe(a, c)
    decreases |a|
  {
    if |a| > 0 && a[0] == b[0] && b[0] == c[0] {
      StrLeTransitive(a[1..], b[1..], c[1..]);
    }
  }
}

=== FILE: upload_middleware.dfy ===
/** The profile-image upload filter: a MIME-type allow-list and the 5 MB
    size limit handed to multer. Cloud storage and its parameters are not
    modelled; what matters here is which errors an upload can raise and how
    the error middleware then answers them. */
module UploadMiddleware {
  import opened Wrappers
  import opened Strings
  import opened ErrorMiddleware

  const AllowedMimes: seq<string> := ["image/jpeg", "image/jpg", "image/png"]

  /** `limits.fileSize`, in bytes. */
  const MaxFileSize: nat := 5 * 1024 * 1024

  /** The rejection text: the invalid-format marker the error middleware
      looks for, followed by the list of accepted formats. */
  const InvalidFormatMsg := InvalidFormatMarker + ". Sadece JPG, JPEG ve PNG dosyaları kabul edilir."

  /** The arguments `fileFilter` passes to its callback `cb(error, accept)`. */
  datatype FilterCallback = FilterCallback(error: Option<ErrorRecord>, accept: bool)

  /** An incoming file part as multer describes it. */
  datatype FileInfo = FileInfo(mimetype: string, size: nat)

  function FileFilter(mimetype: string): (r: FilterCallback)
    ensures r.accept <==> mimetype == "image/jpeg" || mimetype == "image/jpg" || mimetype == "image/png"
    ensures r.accept ==> r.error.None?
    ensures !r.accept ==> r.error == Some(PlainError(InvalidFormatMsg))
  {
    if mimetype in AllowedMimes then FilterCallback(None, true)
    else FilterCallback(Some(PlainError(InvalidFormatMsg)), false)
  }

  /** The error an upload of `file` ends in, if any: the filter's rejection
      first, and otherwise multer's size-limit error for a file longer than
      the limit (a file of exactly the limit is accepted). */
  function UploadError(file: FileInfo): (r: Option<ErrorRecord>)
    ensures r.None? <==> FileFilter(file.mimetype).accept && file.size <= MaxFileSize
  {
    var cb := FileFilter(file.mimetype);
    if !cb.accept then cb.error
    else if file.size > MaxFileSize then
      Some(ErrorRecord("MulterError", "File too large", Some("LIMIT_FILE_SIZE"), None, None, []))
    else None
  }

  /** The filter's rejection carries the invalid-format text, so the error
      middleware answers it with 400 and the rejection message unchanged. */
  lemma RejectionClassifiedAs400(mimetype: string)
    requires !FileFilter(mimetype).accept
    ensures ErrorHandler(FileFilter(mimetype).error.value) == Response(false, 400, InvalidFormatMsg)
  {
    PrefixIsContained(InvalidFormatMsg, InvalidFormatMarker);
    FileFilterMessagePassesThrough(PlainError(InvalidFormatMsg));
  }

  /** Every failed upload is answered with 400 and a message naming the
      violated constraint: the allowed formats or the 5 MB limit. */
  lemma UploadFailuresAre400(file: FileInfo)
    requires UploadError(file).Some?
    ensures ErrorHandler(UploadError(file).value).status == 400
    ensures ErrorHandler(UploadError(file).value).message ==
      (if FileFilter(file.mimetype).accept then FileSizeMsg else InvalidFormatMsg)
  {
    if !FileFilter(file.mimetype).accept {
      RejectionClassifiedAs400(file.mimetype);
    } else {
      MissingCharNotContained("File too large", InvalidFormatMarker, 2);
      MulterErrors(UploadError(file).value);
    }
  }

  /** The size limit is 5 * 1024 * 1024 bytes, the "5MB" the size-limit
      message announces. */
  lemma SizeLimitMatchesMessage()
    ensures MaxFileSize == 5242880
    ensures Contains(FileSizeMsg, "5MB")
  {
    assert FileSizeMsg[33..36] == "5MB";
    assert OccursAt(FileSizeMsg, "5MB", 33);
  }
}

=== FILE: validation_schemas.dfy ===
/** The Joi schemas for registration and login, as validity predicates over
    a payload of optional JSON values. Joi's e-mail grammar and its date
    conversion are oracles; the rest is written out, including the Joi
    defaults the schema relies on: `Joi.string()` refuses the empty string
    and `Joi.object()` refuses keys it does not list. */
module ValidationSchemas {
  import opened Wrappers
  import opened Strings

  /** A JSON value as far as the schema tells values apart. */
  datatype Value = Str(s: string) | Num(n: int) | OtherValue

  /** The registration body; every listed key may be absent. `unknownKeys`
      are the keys the schema does not list. */
  datatype RegisterPayload = RegisterPayload(
    email: Option<Value>,
    password: Option<Value>,
    role: Option<Value>,
    firstName: Option<Value>,
    lastName: Option<Value>,
    tcIdentityNumber: Option<Value>,
    dateOfBirth: Option<Value>,
    gender: Option<Value>,
    phoneNumber: Option<Value>,
    address: Option<Value>,
    city: Option<Value>,
    country: Option<Value>,
    departmentId: Option<Value>,
    studentNumber: Option<Value>,
    employeeNumber: Option<Value>,
    title: Option<Value>,
    officeLocation: Option<Value>,
    specialization: Option<Value>,
    unknownKeys: seq<string>)

  datatype LoginPayload = LoginPayload(email: Option<Value>, password: Option<Value>, unknownKeys: seq<string>)

  /** Joi's format oracles: `email()` and the conversion `date()` performs
      (a timestamp, or None when the value is not a date). */
  datatype Oracles = Oracles(isEmail: string -> bool, toDate: Value -> Option<int>)

  const Titles: seq<string> := ["Prof. Dr.", "Doç. Dr.", "Dr. Öğr. Üyesi", "Arş. Gör.", "Öğr. Gör.", "Okutman"]

  /** The `title` enum of the Faculty model. */
  const FacultyModelTitles: set<string> := {"Prof. Dr.", "Doç. Dr.", "Dr. Öğr. Üyesi", "Arş. Gör.", "Öğr. Gör.", "Okutman"}

  lemma TitlesMatchFacultyModel()
    ensures forall t :: t in Titles <==> t in FacultyModelTitles
  {
  }

  // ----- Joi building blocks -----

  /** `Joi.string()`: a string, and not the empty one. */
  predicate JoiString(v: Value) {
    v.Str? && v.s != ""
  }

  predicate OptionalString(f: Option<Value>) {
    f.None? || JoiString(f.value)
  }

  predicate RequiredString(f: Option<Value>) {
    f.Some? && JoiString(f.value)
  }

  /** `Joi.string().min(lo).max(hi).required()`. */
  predicate RequiredLength(f: Option<Value>, lo: nat, hi: nat) {
    RequiredString(f) && lo <= |f.value.s| <= hi
  }

  /** `Joi.string().valid(...choices)` for a present value. */
  predicate OneOf(v: Value, choices: seq<string>) {
    v.Str? && v.s in choices
  }

  // ----- the password pattern -----

  /** JavaScript's line terminators: the characters `.` does not match. */
  predicate IsLineTerminator(c: char) {
    c == '\n' || c == '\r' || c == '\U{2028}' || c == '\U{2029}'
  }

  datatype CharClass = Lower | Upper | Digit

  /** `[a-z]`, `[A-Z]`, `\d`. */
  predicate InClass(c: char, cls: CharClass) {
    match cls
    case Lower => 'a' <= c <= 'z'
    case Upper => 'A' <= c <= 'Z'
    case Digit => '0' <= c <= '9'
  }

  /** `[a-zA-Z\d\W_]`, where `\W` is everything outside `[A-Za-z0-9_]`. */
  predicate InBodyClass(c: char) {
    var word := InClass(c, Lower) || InClass(c, Upper) || InClass(c, Digit) || c == '_';
    InClass(c, Lower) || InClass(c, Upper) || InClass(c, Digit) || !word || c == '_'
  }

  lemma BodyClassAdmitsEverything(c: char)
    ensures InBodyClass(c)
  {
  }

  /** The lookahead `(?=.*[cls])` at the start of `s`: a character of the
      class is reached before any line terminator. */
  predicate LookaheadFinds(s: string, cls: CharClass) {
    exists k | 0 <= k < |s| :: InClass(s[k], cls) && forall j | 0 <= j < k :: !IsLineTerminator(s[j])
  }

  /** `^(?=.*[a-z])(?=.*[A-Z])(?=.*\d)[a-zA-Z\d\W_]{8,}$` matches `s`. */
  predicate PasswordPattern(s: string) {
    && LookaheadFinds(s, Lower)
    && LookaheadFinds(s, Upper)
    && LookaheadFinds(s, Digit)
    && |s| >= 8
    && forall i | 0 <= i < |s| :: InBodyClass(s[i])
  }

  /** `Joi.string().min(8).pattern(...).required()` for the password. */
  predicate PasswordOk(f: Option<Value>) {
    RequiredString(f) && |f.value.s| >= 8 && PasswordPattern(f.value.s)
  }

  /** Decides the password pattern in one pass over the text before the
      first line terminator, as the three lookaheads scan it. */
  method MatchPassword(s: string) returns (ok: bool)
    ensures ok <==> PasswordPattern(s)
  {
    var i := 0;
    var lower, upper, digit := false, false, false;
    while i < |s| && !IsLineTerminator(s[i])
      invariant 0 <= i <= |s|
      invariant forall j | 0 <= j < i :: !IsLineTerminator(s[j])
      invariant lower <==> exists k | 0 <= k < i :: InClass(s[k], Lower)
      invariant upper <==> exists k | 0 <= k < i :: InClass(s[k], Upper)
      invariant digit <==> exists k | 0 <= k < i :: InClass(s[k], Digit)
    {
      lower := lower || InClass(s[i], Lower);
      upper := upper || InClass(s[i], Upper);
      digit := digit || InClass(s[i], Digit);
      i := i + 1;
    }
    LookaheadStopsAtTerminator(s, i, Lower);
    LookaheadStopsAtTerminator(s, i, Upper);
    LookaheadStopsAtTerminator(s, i, Digit);
    forall j | 0 <= j < |s|
      ensures InBodyClass(s[j])
    {
      BodyClassAdmitsEverything(s[j]);
    }
    ok := lower && upper && digit && |s| >= 8;
  }

  /** When the first line ends at `i`, a lookahead succeeds iff the class
      occurs before `i`. */
  lemma LookaheadStopsAtTerminator(s: string, i: int, cls: CharClass)
    requires 0 <= i <= |s|
    requires forall j | 0 <= j < i :: !IsLineTerminator(s[j])
    requires i < |s| ==> IsLineTerminator(s[i])
    ensures LookaheadFinds(s, cls) <==> exists k | 0 <= k < i :: InClass(s[k], cls)
  {
    if LookaheadFinds(s, cls) {
      var k :| 0 <= k < |s| && InClass(s[k], cls) && forall j | 0 <= j < k :: !IsLineTerminator(s[j]);
      assert i < |s| ==> !(i < k) && !InClass(s[i], cls);
      assert 0 <= k < i && InClass(s[k], cls);
    }
  }

  /** On a password without line breaks the pattern is plain class
      counting: at least 8 characters, one of a-z, one of A-Z, one digit. */
  lemma PasswordPatternWithoutLineBreaks(s: string)
    requires forall j | 0 <= j < |s| :: !IsLineTerminator(s[j])
    ensures PasswordPattern(s) <==>
      && |s| >= 8
      && (exists k | 0 <= k < |s| :: InClass(s[k], Lower))
      && (exists k | 0 <= k < |s| :: InClass(s[k], Upper))
      && (exists k | 0 <= k < |s| :: InClass(s[k], Digit))
  {
    LookaheadStopsAtTerminator(s, |s|, Lower);
    LookaheadStopsAtTerminator(s, |s|, Upper);
    LookaheadStopsAtTerminator(s, |s|, Digit);
    forall j | 0 <= j < |s|
      ensures InBodyClass(s[j])
    {
      BodyClassAdmitsEverything(s[j]);
    }
  }

  /** A line break hides what follows it from the lookaheads: this password
      has all three classes yet does not match. */
  lemma LineBreakHidesClasses()
    ensures !PasswordPattern("abcdefgh\nA1")
  {
    var s := "abcdefgh\nA1";
    assert IsLineTerminator(s[8]);
    assert forall j | 0 <= j < 8 :: !IsLineTerminator(s[j]);
    LookaheadStopsAtTerminator(s, 8, Upper);
    assert forall k | 0 <= k < 8 :: !InClass(s[k], Upper);
  }

  // ----- the registration schema -----

  /** `tc_identity_number`: exactly 11 characters, all of them 0-9. */
  predicate TcIdentityOk(f: Option<Value>) {
    RequiredString(f) && |f.value.s| == 11 && forall i | 0 <= i < 11 :: InClass(f.value.s[i], Digit)
  }

  /** `date_of_birth`: absent, or a date not after `now`. */
  predicate DateOfBirthOk(f: Option<Value>, o: Oracles, now: int) {
    f.None? || (o.toDate(f.value).Some? && o.toDate(f.value).value <= now)
  }

  /** A field `when('role', { is: r, then: optional, otherwise: forbidden })`. */
  predicate OnlyForRole(f: Option<Value>, role: string, r: string) {
    if role == r then OptionalString(f) else f.None?
  }

  /** The fields every registration shares, whatever the role. */
  predicate CommonFieldsOk(p: RegisterPayload, o: Oracles, now: int) {
    && RequiredString(p.email) && o.isEmail(p.email.value.s)
    && PasswordOk(p.password)
    && RequiredLength(p.firstName, 2, 50)
    && RequiredLength(p.lastName, 2, 50)
    && TcIdentityOk(p.tcIdentityNumber)
    && DateOfBirthOk(p.dateOfBirth, o, now)
    && (p.gender.None? || OneOf(p.gender.value, ["male", "female", "other"]))
    && OptionalString(p.phoneNumber)
    && OptionalString(p.address)
    && OptionalString(p.city)
    && OptionalString(p.country)
    && p.departmentId.Some? && p.departmentId.value.Num?
    && p.unknownKeys == []
  }

  /** The fields whose rules depend on `role`. */
  predicate RoleFieldsOk(p: RegisterPayload, role: string) {
    && OnlyForRole(p.studentNumber, role, "student")
    && OnlyForRole(p.employeeNumber, role, "faculty")
    && OnlyForRole(p.officeLocation, role, "faculty")
    && OnlyForRole(p.specialization, role, "faculty")
    && (if role == "faculty" then p.title.Some? && OneOf(p.title.value, Titles) else p.title.None?)
  }

  /** `registerSchema.validate(p)` reports no error. */
  predicate ValidRegister(p: RegisterPayload, o: Oracles, now: int) {
    && p.role.Some? && OneOf(p.role.value, ["student", "faculty"])
    && CommonFieldsOk(p, o, now)
    && RoleFieldsOk(p, p.role.value.s)
  }

  /** `loginSchema.validate(p)` reports no error. */
  predicate ValidLogin(p: LoginPayload, o: Oracles) {
    RequiredString(p.email) && o.isEmail(p.email.value.s) && RequiredString(p.password) && p.unknownKeys == []
  }

  /** What a valid registration promises about its role-dependent fields. */
  lemma RegisterRoleRules(p: RegisterPayload, o: Oracles, now: int)
    requires ValidRegister(p, o, now)
    ensures p.role == Some(Str("student")) || p.role == Some(Str("faculty"))
    ensures p.role == Some(Str("faculty")) <==> p.title.Some?
    ensures p.title.Some? ==> p.title.value.Str? && p.title.value.s in FacultyModelTitles
    ensures p.studentNumber.Some? ==> p.role == Some(Str("student"))
    ensures p.employeeNumber.Some? || p.officeLocation.Some? || p.specialization.Some? ==>
      p.role == Some(Str("faculty"))
    ensures p.departmentId.Some? && p.departmentId.value.Num?
  {
    TitlesMatchFacultyModel();
  }

  /** What a valid registration promises about the fields every role
      shares. */
  lemma RegisterFieldRules(p: RegisterPayload, o: Oracles, now: int)
    requires ValidRegister(p, o, now)
    ensures p.email.Some? && p.email.value.Str? && o.isEmail(p.email.value.s)
    ensures p.firstName.Some? && p.firstName.value.Str? && 2 <= |p.firstName.value.s| <= 50
    ensures p.lastName.Some? && p.lastName.value.Str? && 2 <= |p.lastName.value.s| <= 50
    ensures p.tcIdentityNumber.Some? && p.tcIdentityNumber.value.Str?
    ensures |p.tcIdentityNumber.value.s| == 11
    ensures forall i | 0 <= i < 11 :: '0' <= p.tcIdentityNumber.value.s[i] <= '9'
    ensures p.gender.Some? ==> p.gender.value in {Str("male"), Str("female"), Str("other")}
    ensures p.password.Some? && p.password.value.Str? && |p.password.value.s| >= 8
    ensures exists k | 0 <= k < |p.password.value.s| :: 'a' <= p.password.value.s[k] <= 'z'
    ensures exists k | 0 <= k < |p.password.value.s| :: 'A' <= p.password.value.s[k] <= 'Z'
    ensures exists k | 0 <= k < |p.password.value.s| :: '0' <= p.password.value.s[k] <= '9'
    ensures p.unknownKeys == []
  {
    var s := p.password.value.s;
    assert LookaheadFinds(s, Lower) && LookaheadFinds(s, Upper) && LookaheadFinds(s, Digit);
    var a :| 0 <= a < |s| && InClass(s[a], Lower) && forall j | 0 <= j < a :: !IsLineTerminator(s[j]);
    var b :| 0 <= b < |s| && InClass(s[b], Upper) && forall j | 0 <= j < b :: !IsLineTerminator(s[j]);
    var c :| 0 <= c < |s| && InClass(s[c], Digit) && forall j | 0 <= j < c :: !IsLineTerminator(s[j]);
    assert 'a' <= s[a] <= 'z' && 'A' <= s[b] <= 'Z' && '0' <= s[c] <= '9';
  }

  /** No payload registers an admin. */
  lemma AdminNeverRegisters(p: RegisterPayload, o: Oracles, now: int)
    requires p.role == Some(Str("admin"))
    ensures !ValidRegister(p, o, now)
  {
  }

  /** Dropping the title and the faculty-only fields of a valid faculty
      registration and switching the role to student keeps it valid; and a
      faculty registration without a title is never valid. */
  lemma TitleDecidesBetweenRoles(p: RegisterPayload, o: Oracles, now: int)
    ensures p.role == Some(Str("faculty")) && p.title.None? ==> !ValidRegister(p, o, now)
    ensures ValidRegister(p, o, now) && p.role == Some(Str("faculty")) ==>
      ValidRegister(p.(role := Some(Str("student")), title := None, employeeNumber := None,
                       officeLocation := None, specialization := None), o, now)
  {
  }

  /** Every valid registration carries a valid login. */
  lemma RegistrationCarriesLogin(p: RegisterPayload, o: Oracles, now: int)
    requires ValidRegister(p, o, now)
    ensures ValidLogin(LoginPayload(p.email, p.password, []), o)
  {
  }

  /** The password the registration unit test uses, "Password123!", is
      accepted. */
  lemma ExamplePasswordAccepted()
    ensures PasswordPattern("Password123!")
  {
    var s := "Password123!";
    assert InClass(s[1], Lower) && InClass(s[0], Upper) && InClass(s[8], Digit);
    assert forall j | 0 <= j < 8 :: !IsLineTerminator(s[j]);
    forall j | 0 <= j < |s|
      ensures InBodyClass(s[j])
    {
      BodyClassAdmitsEverything(s[j]);
    }
  }
}

=== FILE: wrappers.dfy ===
/** The optional value used across the model in place of JavaScript's
    `undefined` and `null`. */
module Wrappers {

  datatype Option<+T> = None | Some(value: T)
}
